=== FILE: README.md ===
# Cargo shipping: delivery-status derivation

A Dafny model of the domain core of the CargoShippingDDD booking application.
At its centre is the delivery-status engine. It takes a cargo's route
specification, its itinerary (possibly absent) and its handling history, and
derives a snapshot with the following fields:

- routing status: not routed, misrouted or routed;
- transport status: not received, in port, on board a carrier or claimed;
- whether the cargo is misdirected;
- the estimated time of arrival;
- the next expected handling activity;
- the last known location and the current voyage;
- whether the cargo was unloaded at its destination.

Around the engine the model covers the following:

- the itinerary's test of whether a handling event fits the plan;
- the route specification's test of whether an itinerary satisfies it;
- the handling history's view of the events: duplicates removed, ordered by completion time;
- the handling events and their voyage rule;
- the cargo aggregate, whose operations always re-derive the delivery.

The construction-validated value types below them are modelled too: UN/LOCODEs,
locations, legs, carrier movements, schedules, voyages, voyage numbers and the
voyage builder. So is the atomic-value equality they share.

How the model represents the program:

- **Modules.** There is one module per source class, in one file each. Every
  operation is a pure function over immutable datatypes.
- **Nulls and exceptions.** A null reference is `Option.None`. An argument
  exception becomes `Result.Err`, carrying the parameter name the source passes.
  The empty name stands for an exception raised without one. The one null
  dereference the model keeps, on the list of `Schedule.Empty`, is
  `Err(NullReference)`.
- **Dates.** A `DateTime` is a natural number of ticks, and 0 is
  `default(DateTime)`, the "unset" value the constructors reject. The clock
  (`DateTime.Now`) becomes a `now` parameter.
- **Voyage identity.** `Voyage` has no `==` overload, so `==` on voyages means
  object identity. Each voyage therefore carries an explicit `identity`.
  `Voyages.SameInstance` is reference equality, and `Voyages.Equals` compares
  voyage numbers.
- **Locations.** They are always compared by UN/LOCODE through `Locations.Same`.
  The name is ignored.
- **Cargo operations.** The cargo's mutators become functions that return the
  new cargo together with the domain notifications they raise.
- **A parameter-name slip.** `Delivery.UpdateOnRouting` passes its message
  where the parameter name belongs. The model keeps the name as written.

## Model

| member | source | states |
|---|---|---|
| ValueObject.EqualOperator | BookingApi/src/Domain/ValueObject.cs:16-24 | Two nulls are equal and a null never equals a non-null. Otherwise the left operand's `Equals` decides. |
| ValueObject.NotEqualOperator | BookingApi/src/Domain/ValueObject.cs:32-35 | `!=` is exactly the negation of `==`, so two nulls are not unequal. |
| ValueObject.EqualsByEnumeration | BookingApi/src/Domain/ValueObject.cs:49-74 | The enumerator loop: false for null or another runtime type. For an instance, true exactly when the argument's values match the receiver's values pointwise and the receiver has the same number of values or one more. |
| ValueObject.AtomsEqualIsPrefixMatchWithSlack | BookingApi/src/Domain/ValueObject.cs:56-73 | The step-by-step reading of the loop and that closed form agree on every pair of lists. |
| ValueObject.AsWrittenAgreesOnEqualLength | BookingApi/src/Domain/ValueObject.cs:56-73 | On lists of the same length the loop is pointwise equality. So every value object with a fixed number of atoms compares them field by field. |
| ValueObject.AsWrittenAcceptsOneTrailingValue | BookingApi/src/Domain/ValueObject.cs:60-73 | A receiver with one extra trailing value equals the shorter argument. The reverse comparison is false, and so is the intended same-length comparison. |
| UnLocodes.UpperChar | BookingApi/src/Domain/Location/UnLocode.cs:32 | Upper-casing changes only ASCII lower-case letters, each to its upper-case partner. |
| UnLocodes.ToUpper | BookingApi/src/Domain/Location/UnLocode.cs:32 | The upper-cased string has the same length, and each character is the upper-cased character of the input. |
| UnLocodes.Parse | BookingApi/src/Domain/Location/UnLocode.cs:17-33 | A null code gives an argument-null error and a code outside `[a-zA-Z]{2}[a-zA-Z2-9]{3}` an argument error. Every matching code is accepted and stored upper-cased, equal to the input up to letter case. |
| UnLocodes.EqualsIsCodeEquality | BookingApi/src/Domain/Location/UnLocode.cs:44-47 | Two UN/LOCODEs are equal exactly when their stored codes are the same string. |
| UnLocodes.ParseIgnoresCase | BookingApi/src/Domain/Location/UnLocode.cs:24-47 | Two accepted codes give equal UN/LOCODEs exactly when they differ only in letter case. |
| UnLocodes.ReparseIsIdentity | BookingApi/src/Domain/Location/UnLocode.cs:32-42 | Parsing the stored `CodeString` again gives back the same UN/LOCODE: normalisation is idempotent. |
| Locations.New | BookingApi/src/Domain/Location/Location.cs:36-45 | The constructor rejects a null code, then a null or empty name. Otherwise it stores both. |
| Locations.Unknown | BookingApi/src/Domain/Location/Location.cs:26-29 | `Unknown` is an ordinary constructible location whose code, XXXXX, passes the UN/LOCODE pattern unchanged. |
| Locations.SameIsCodeEquality | BookingApi/src/Domain/Location/Location.cs:91-99 | Locations are equal exactly when their UN/LOCODEs are, whatever their names. The comparison is symmetric. |
| Locations.EqualityFacts | BookingApi/src/Domain/Location/Location.cs:60-99 | Equality is reflexive and false against null. `==` holds for two nulls and fails for exactly one null. `Unknown` equals every location coded XXXXX. |
| Locations.ToString | BookingApi/src/Domain/Location/Location.cs:110-113 | The text is the name followed by ` [code]`. |
| VoyageNumbers.EqualsIsStringEquality | BookingApi/src/Domain/Voyage/VoyageNumber.cs:57-60 | Voyage numbers are equal exactly when their strings are. |
| VoyageNumbers.New | BookingApi/src/Domain/Voyage/VoyageNumber.cs:19-25 | The constructor fails exactly for a null string. Every string, the empty one included, is accepted and kept as the number's string. |
| VoyageNumbers.NewRespectsStrings | BookingApi/src/Domain/Voyage/VoyageNumber.cs:19-33 | Numbers built from any two strings, the empty one included, are equal exactly when the strings are the same. |
| CarrierMovements.New | BookingApi/src/Domain/Voyage/CarrierMovement.cs:30-59 | The constructor rejects, in order, a null departure, a null arrival, an unset departure time and an unset arrival time. Nothing else is required: times may be in any order and both ends may be one place. |
| CarrierMovements.Empty | BookingApi/src/Domain/Voyage/CarrierMovement.cs:21 | The sentinel movement goes from `Unknown` to `Unknown`, with one clock reading for each time. It is built exactly when both readings are set dates. |
| CarrierMovements.SwappedEndsDiffer | BookingApi/src/Domain/Voyage/CarrierMovement.cs:103-109 | Swapping departure and arrival breaks equality when the two ends have different codes. |
| CarrierMovements.EqualsIsEquivalence | BookingApi/src/Domain/Voyage/CarrierMovement.cs:103-109 | Movement equality is reflexive, symmetric and transitive. |
| Schedules.Unwrap | BookingApi/src/Domain/Voyage/Schedule.cs:32-39 | A list without nulls unwraps to movements of the same length, element by element. |
| Schedules.New | BookingApi/src/Domain/Voyage/Schedule.cs:25-40 | The constructor rejects, in order, a null list, a list holding a null and an empty list. An accepted schedule holds the given movements in order, and there is at least one. |
| Schedules.EmptyIsNotConstructible | BookingApi/src/Domain/Voyage/Schedule.cs:19 | The `Empty` sentinel has a null list, modelled as no movements, so the public constructor can never produce it. |
| Schedules.EqualsIsEquivalence | BookingApi/src/Domain/Voyage/Schedule.cs:72-78 | Schedule equality, using the corrected comparison, is reflexive, symmetric and transitive. |
| Schedules.EqualsAsRun | BookingApi/src/Domain/Voyage/Schedule.cs:72-83 | `Equals(object)` as the source runs it. A null argument or another type is unequal. When `Empty` is the receiver or the argument, enumerating its null list throws a null-reference exception. Between constructed schedules the loop as written decides: a pointwise match with one extra trailing movement allowed on the receiver. |
| Schedules.EqualOperatorAsRun | BookingApi/src/Domain/Voyage/Schedule.cs:56-59 | `==` on schedules: two nulls are equal and one null is unequal. `Empty == Empty` throws. Between constructed schedules it is the value-object operator over the loop as written. |
| Schedules.EqualsAsRunAgrees | BookingApi/src/Domain/Voyage/Schedule.cs:72-83 | A comparison that reaches the enumeration throws exactly when `Empty` takes part. Between constructed schedules of the same length it gives the corrected `Equals`. |
| Schedules.AsWrittenLoopOnSchedules | BookingApi/src/Domain/Voyage/Schedule.cs:72-78 | On schedules the loop as written agrees with pointwise equality when the lengths match. It also accepts a schedule with one extra trailing movement against the shorter one, in that direction only. |
| Voyages.New | BookingApi/src/Domain/Voyage/Voyage.cs:30-40 | The constructor rejects a null number, then a null schedule. Otherwise it keeps both. |
| Voyages.IdentityIsFinerThanEquals | BookingApi/src/Domain/Voyage/Voyage.cs:47-55 | `Equals` compares numbers only and is false for null or another type. Two distinct voyage objects with one number are `Equals` but not the same instance. |
| VoyageBuilders.New | BookingApi/src/Domain/Services/VoyageBuilder.cs:22-36 | The constructor rejects a null number, then a null departure location. A new builder has no movements. |
| VoyageBuilders.AddMovement | BookingApi/src/Domain/Services/VoyageBuilder.cs:45-50 | It fails exactly when the movement constructor would, with that constructor's error, and then no builder results. Otherwise it appends one movement from the current departure location, and the arrival becomes the next departure. The movements stay chained. |
| VoyageBuilders.Build | BookingApi/src/Domain/Services/VoyageBuilder.cs:56-59 | It fails exactly when no movement was added, with the schedule's argument exception. Otherwise the voyage has the builder's number and the added movements in order. |
| VoyageBuilders.AddMovementsChains | BookingApi/src/Domain/Services/VoyageBuilder.cs:45-50 | A chain of any number of additions succeeds exactly when every stop has both times set. It appends one movement per stop, in order. The first leaves from the builder's departure location and each later one from the previous arrival. It keeps the earlier movements, the number and the chaining, and the builder ends at the last arrival. |
| VoyageBuilders.BuildTwiceGivesEqualVoyages | BookingApi/src/Domain/Services/VoyageBuilder.cs:56-59 | Building twice gives equal voyages over the same schedule. |
| TrackingIds.New | BookingApi/src/BookingApi.UnitTests/Domain/Cargo/TrackingIdTests.cs:9-35 | A tracking id is accepted exactly when it is a non-empty string. |
| HandlingEventTypes.RequiresVoyage | BookingApi/src/Domain/Handling/HandlingEventType.cs:46-55 | A voyage is required exactly for Load and Unload. The throwing fallback cannot be reached. |
| HandlingEventTypes.ProhibitsVoyage | BookingApi/src/Domain/Handling/HandlingEventType.cs:62-65 | A voyage is prohibited exactly for Receive, Claim and Customs. Exactly one of the two predicates holds for every type. |
| HandlingEvents.NewWithVoyage | BookingApi/src/Domain/Handling/HandlingEvent.cs:46-67 | It rejects, in order, a null cargo, location or voyage, an unset registration or completion date, and a type that prohibits a voyage. Otherwise the event holds exactly the arguments and has its voyage. |
| HandlingEvents.New | BookingApi/src/Domain/Handling/HandlingEvent.cs:78-97 | It rejects, in order, a null cargo or location, an unset registration or completion date, and Load or Unload. Otherwise the event has no voyage, and its `Voyage` is `Voyage.Empty`. |
| HandlingEvents.EqualsIsEquivalence | BookingApi/src/Domain/Handling/HandlingEvent.cs:150-157 | Event equality over type, location, completion date, cargo and voyage is reflexive, symmetric and transitive. |
| HandlingEvents.RegistrationDateIsIgnored | BookingApi/src/Domain/Handling/HandlingEvent.cs:150-157 | Two events that differ only in registration date are equal, in both directions. |
| HandlingEvents.EqualEventsShareCompletion | BookingApi/src/Domain/Handling/HandlingEvent.cs:150-157 | Equal events were completed at the same time. |
| HandlingActivities.New | BookingApi/src/Domain/Cargo/HandlingActivity.cs:25-32 | The two-argument constructor rejects only a null location. Its activity has no voyage. |
| HandlingActivities.NewWithVoyage | BookingApi/src/Domain/Cargo/HandlingActivity.cs:40-50 | The three-argument constructor rejects a null location, then a null voyage. |
| HandlingActivities.VoyageMakesADifference | BookingApi/src/Domain/Cargo/HandlingActivity.cs:76-81 | An activity without a voyage never equals one with a voyage, in either direction, even with the same type and location. |
| Legs.New | BookingApi/src/Domain/Cargo/Leg.cs:29-47 | It rejects, in order, a null voyage, load location or unload location, then an unset load or unload date. Otherwise the leg holds exactly the arguments. |
| Legs.DatesAreUnordered | BookingApi/src/Domain/Cargo/Leg.cs:29-47 | A leg whose unload date precedes its load date is accepted. |
| Legs.EqualsIsReflexive | BookingApi/src/Domain/Cargo/Leg.cs:91-98 | Every leg equals itself under equality over voyage number, both locations and both dates. |
| Itineraries.New | BookingApi/src/Domain/Cargo/Itinerary.cs:22-30 | The constructor rejects a null list, then an empty one. Otherwise the itinerary holds the given legs. |
| Itineraries.FinalArrivalDate | BookingApi/src/Domain/Cargo/Itinerary.cs:64-67 | The final arrival date is missing exactly for the itinerary without legs. |
| Itineraries.EndpointsOfConstructed | BookingApi/src/Domain/Cargo/Itinerary.cs:35-67 | A constructed itinerary departs where its first leg loads. It arrives where and when its last leg unloads. Only `EmptyItinerary` reports the unknown location and no date. |
| Itineraries.FirstLegAt | BookingApi/src/Domain/Cargo/Delivery.cs:209-220 | The leg search returns the least index whose load or unload location has the given code. It finds nothing exactly when no leg has one. |
| Itineraries.Expects | BookingApi/src/Domain/Cargo/Itinerary.cs:75-107 | The itinerary's rule by event type: without legs everything is expected. A receive must be at the first load location and a claim at the last unload location. A load or unload must match some leg's end on that leg's voyage instance. Customs is always expected. |
| Itineraries.IsExpected | BookingApi/src/Domain/Cargo/Itinerary.cs:75-107 | An event is expected when the rule above holds for its type, its location and its voyage, with `Voyage.Empty` standing in for no voyage. |
| Itineraries.ExpectationIgnoresTheRest | BookingApi/src/Domain/Cargo/Itinerary.cs:75-107 | Whether an event is expected depends only on its type, its location's code and its voyage. Dates, cargo and location names play no part. |
| Itineraries.ExpectedAtEndpoints | BookingApi/src/Domain/Cargo/Itinerary.cs:77-106 | The itinerary without legs expects every event, and customs is always expected. A receive is expected exactly at the initial departure location and a claim exactly at the final arrival location. |
| Itineraries.LoadExpectedOnlyAtALoadLocation | BookingApi/src/Domain/Cargo/Itinerary.cs:94-98 | An expected load implies that the leg search by load location succeeds. |
| Itineraries.VoyageMatchedByInstance | BookingApi/src/Domain/Cargo/Itinerary.cs:94-98 | A load on a different voyage object with the same number is not expected, although the two voyages are `Equals`. |
| Itineraries.EqualsFacts | BookingApi/src/Domain/Cargo/Itinerary.cs:116-122 | Under the corrected comparison, an itinerary equals itself. One with an extra leg is not equal to it in either direction. |
| Itineraries.AsWrittenLoopOnItineraries | BookingApi/src/Domain/Cargo/Itinerary.cs:116-122 | With the loop as written, itineraries with the same number of legs compare as under the corrected comparison. An itinerary with one extra trailing leg equals the shorter one, but not the other way round, and the corrected comparison rejects it. |
| RouteSpecifications.New | BookingApi/src/Domain/Cargo/RouteSpecification.cs:23-40 | It rejects, in order, a null origin, a null destination, an origin with the destination's code and an unset deadline, each with its own error. Otherwise it keeps the three arguments. |
| RouteSpecifications.IsSatisfiedBy | BookingApi/src/Domain/Cargo/RouteSpecification.cs:50-56 | A satisfying itinerary is non-null and has at least one leg. It must start at the origin, end at the destination and arrive strictly before the deadline, and a missing arrival date never satisfies. |
| RouteSpecifications.SatisfiedByLegs | BookingApi/src/Domain/Cargo/RouteSpecification.cs:50-56 | An itinerary satisfies the specification exactly when all of these hold: it has a leg; the first leg loads at the origin's code; the last leg unloads at the destination's code; and that unload is strictly before the deadline. |
| RouteSpecifications.NotSatisfied | BookingApi/src/Domain/Cargo/RouteSpecification.cs:50-56 | Neither a null itinerary nor `EmptyItinerary` satisfies any specification, and arriving exactly at the deadline is too late. |
| RouteSpecifications.EqualSpecificationsAgree | BookingApi/src/Domain/Cargo/RouteSpecification.cs:104-109 | Specifications equal in origin, destination and deadline are satisfied by the same itineraries. |
| HandlingHistories.New | BookingApi/src/Domain/Handling/HandlingHistory.cs:26-32 | The constructor rejects only a null list. An empty list is a valid history. |
| HandlingHistories.Distinct | BookingApi/src/Domain/Handling/HandlingHistory.cs:39 | The distinct list is no longer than the input, non-empty when the input is, and made of input events. |
| HandlingHistories.DistinctIsUnique | BookingApi/src/Domain/Handling/HandlingHistory.cs:39 | No two events of the distinct list are equal. |
| HandlingHistories.DistinctCovers | BookingApi/src/Domain/Handling/HandlingHistory.cs:39 | An event equals something in the distinct list exactly when it equals something in the input. |
| HandlingHistories.DistinctKeepsFirstOccurrences | BookingApi/src/Domain/Handling/HandlingHistory.cs:39 | The first registration of every event is the one kept. |
| HandlingHistories.DuplicateRegistrationsCollapse | BookingApi/src/Domain/Handling/HandlingHistory.cs:39 | Two registrations of one event, differing only in registration date, collapse to the first. |
| HandlingHistories.Insert | BookingApi/src/Domain/Handling/HandlingHistory.cs:39 | Inserting an event into the ordered list adds exactly that event: the multiset grows by one. |
| HandlingHistories.InsertKeepsOrder | BookingApi/src/Domain/Handling/HandlingHistory.cs:39 | Insertion keeps a list ordered by completion date. |
| HandlingHistories.InsertIsStable | BookingApi/src/Domain/Handling/HandlingHistory.cs:39 | An inserted event comes after the events already there with the same completion date. |
| HandlingHistories.SortByCompletion | BookingApi/src/Domain/Handling/HandlingHistory.cs:39 | Ordering by completion date is a permutation of its input. |
| HandlingHistories.SortIsOrdered | BookingApi/src/Domain/Handling/HandlingHistory.cs:39 | The result is non-decreasing in completion date. |
| HandlingHistories.SortIsStable | BookingApi/src/Domain/Handling/HandlingHistory.cs:39 | For every date, the events completed at it keep their input order, as `OrderBy` is stable. |
| HandlingHistories.SortKeepsUnique | BookingApi/src/Domain/Handling/HandlingHistory.cs:39 | Ordering a list without equal events gives a list without equal events. |
| HandlingHistories.DistinctEventsByCompletionTime | BookingApi/src/Domain/Handling/HandlingHistory.cs:37-40 | The view is ordered by completion date, holds no two equal events and is empty only for an empty history. It holds, modulo equality, exactly the history's events, and keeps the first-occurrence order among events completed at the same time. |
| HandlingHistories.LastOfViewIsLatest | BookingApi/src/Domain/Handling/HandlingHistory.cs:37-52 | For a non-empty history the view is non-empty. Its last event is one of the history's events, completed no earlier than every event of the history. |
| HandlingHistories.MostRecentlyCompletedEvent | BookingApi/src/Domain/Handling/HandlingHistory.cs:45-52 | It is null exactly for an empty history. Otherwise it is the last event of the ordered, duplicate-free view: one of the history's events, completed no earlier than any of them. |
| HandlingHistories.MostRecentBreaksTiesByRegistration | BookingApi/src/Domain/Handling/HandlingHistory.cs:37-52 | When several distinct events share the latest completion date, the most recent is the one whose first registration came last. |
| HandlingHistories.MostRecentOfSmallHistories | BookingApi/src/Domain/Handling/HandlingHistory.cs:21-52 | `EmptyHistory` has no most recent event, and a one-event history reports that event. |
| HandlingHistories.AsWrittenLoopOnHistories | BookingApi/src/Domain/Handling/HandlingHistory.cs:81-84 | With the loop as written, histories with the same number of events compare as under the corrected comparison. A history with one extra trailing event equals the shorter one, but not the other way round, and the corrected comparison rejects it. |
| Deliveries.CalculateMisdirectionStatus | BookingApi/src/Domain/Cargo/Delivery.cs:240-249 | Misdirected exactly when there is a last event and an itinerary, and the itinerary does not expect that event. |
| Deliveries.CalculateRoutingStatus | BookingApi/src/Domain/Cargo/Delivery.cs:232-238 | Not routed exactly without an itinerary. Routed exactly when the specification is satisfied. Misrouted otherwise. |
| Deliveries.CalculateTransportStatus | BookingApi/src/Domain/Cargo/Delivery.cs:177-195 | Not received exactly without a last event. On board exactly after a load and claimed exactly after a claim. The unknown fallback is never produced. |
| Deliveries.CalculateLastKnownLocation | BookingApi/src/Domain/Cargo/Delivery.cs:172-175 | The last known location is present exactly when there is a last event, and it is that event's location. |
| Deliveries.CalculateCurrentVoyage | BookingApi/src/Domain/Cargo/Delivery.cs:152-158 | The current voyage is present exactly when on board with a last event, and it is that event's voyage. |
| Deliveries.CalculateEta | BookingApi/src/Domain/Cargo/Delivery.cs:167-170 | An estimated arrival exists only on track, and on track it is the itinerary's final arrival date. |
| Deliveries.CalculateNextExpectedActivity | BookingApi/src/Domain/Cargo/Delivery.cs:197-230 | Off track there is none. With no event it is a receive at the origin, and after a receive a load on the first leg's voyage. After a load it is an unload at the end of the first leg loading at that place, on that leg's voyage, or none when no leg loads there. After an unload it takes the first leg unloading at that place: a load with no voyage at the start of the following leg, or a claim at that place when the leg is the last; none when no leg unloads there. After a claim or customs there is none, and customs is never expected next. |
| Deliveries.CalculateUnloadedAtDestination | BookingApi/src/Domain/Cargo/Delivery.cs:160-165 | Unloaded at destination exactly when the last event is an unload at the destination's code. |
| Deliveries.Delivery.OnTrack | BookingApi/src/Domain/Cargo/Delivery.cs:251-254 | A delivery is on track when it is routed and not misdirected. |
| Deliveries.Snapshot | BookingApi/src/Domain/Cargo/Delivery.cs:137-150 | The snapshot keeps the last event and the clock reading. On track implies satisfied and not misdirected. A current voyage implies on board, and an estimated arrival exists exactly on track. |
| Deliveries.DerivedFrom | BookingApi/src/Domain/Cargo/Delivery.cs:110-119 | It rejects a null specification, then a null history; the itinerary may be absent. Otherwise it is the snapshot of the history's most recent event. |
| Deliveries.UpdateOnRouting | BookingApi/src/Domain/Cargo/Delivery.cs:129-135 | It rejects a null specification. Otherwise it is a fresh snapshot for the stored last event. |
| Deliveries.NoHistoryMeansNotReceived | BookingApi/src/Domain/Cargo/Delivery.cs:70-81 | From an empty history the cargo is not received, at `Location.Unknown` and on `Voyage.Empty`. It is neither misdirected nor unloaded at its destination, and on track it is to be received at the origin. |
| Deliveries.NoItineraryMeansNotRouted | BookingApi/src/Domain/Cargo/Delivery.cs:232-249 | Without an itinerary the cargo is not routed and not misdirected. It has no estimated arrival and no next activity. |
| Deliveries.StatusFollowsLastEvent | BookingApi/src/Domain/Cargo/Delivery.cs:152-195 | The last known location is the last event's location. The current voyage is that event's voyage exactly after a load, and `Voyage.Empty` otherwise. Claimed exactly after a claim. |
| Deliveries.UpdateOnRoutingKeepsHandlingStatus | BookingApi/src/Domain/Cargo/Delivery.cs:129-135 | Re-routing keeps the last event, transport status, last known location and current voyage. For the same destination it also keeps unloaded-at-destination. |
| Deliveries.DerivationIsDeterministic | BookingApi/src/Domain/Cargo/Delivery.cs:137-150 | Snapshots of the same inputs differ only in their calculation time. |
| Deliveries.OnTrackEtaMeetsDeadline | BookingApi/src/Domain/Cargo/Delivery.cs:167-170 | On track the itinerary has legs. The estimated arrival is the last leg's unload date, which is before the deadline. |
| Deliveries.NextActivityIsExpected | BookingApi/src/Domain/Cargo/Delivery.cs:207-226 | On track after a receive or a load, an event performing the next activity is expected by the itinerary. |
| Deliveries.OnTrackNextActivity | BookingApi/src/Domain/Cargo/Delivery.cs:197-230 | On track, there is a next activity exactly when the last handling was not a claim or customs, so the load and unload leg searches never fail. A claim is expected only at the destination. |
| Deliveries.NextLoadAfterUnloadNamesNoVoyage | BookingApi/src/Domain/Cargo/Delivery.cs:212-222 | After an unload at the end of the first of two legs, the next activity is a load at the second leg's start with no voyage. |
| Cargoes.New | BookingApi/src/Domain/Cargo/Cargo.cs:80-94 | It rejects a null tracking id, then a null specification. The new cargo takes its origin from the specification and has no itinerary. Its consistent delivery is not routed, not received, at `Location.Unknown`, on `Voyage.Empty` and not misdirected. |
| Cargoes.SpecifyNewRoute | BookingApi/src/Domain/Cargo/Cargo.cs:100-108 | It rejects a null specification. Otherwise it replaces the specification, keeps identity, origin, itinerary and last event, and re-derives a consistent delivery. |
| Cargoes.AssignToRoute | BookingApi/src/Domain/Cargo/Cargo.cs:115-125 | It rejects a null itinerary. Otherwise it attaches the itinerary and re-derives a consistent delivery that is routed or misrouted, never not routed. It raises one notification carrying the previous itinerary. |
| Cargoes.DeriveDeliveryProgress | BookingApi/src/Domain/Cargo/Cargo.cs:142-157 | It rejects a null history. Otherwise it changes only the delivery, to the consistent snapshot of the history's most recent event. It raises at most one notification: misdirected when misdirected, else arrived when unloaded at the destination, and none otherwise. |
| Cargoes.Consistent | BookingApi/src/Domain/Cargo/Cargo.cs:89-157 | The aggregate invariant: the cargo's delivery is the snapshot of its current specification and itinerary for the delivery's own last event and calculation time. |
| Cargoes.Equals | BookingApi/src/Domain/Cargo/Cargo.cs:168-176 | Cargoes are equal exactly when their tracking ids are; nothing else is compared. |
| Cargoes.IdentityAndOriginAreStable | BookingApi/src/Domain/Cargo/Cargo.cs:89-176 | No operation changes a cargo's tracking id or origin, so the cargo stays equal to itself. |
| Cargoes.OriginSurvivesRespecification | BookingApi/src/Domain/Cargo/Cargo.cs:89-108 | After a new route is specified, the cargo's origin may differ from the specification's origin. |
| Cargoes.RoutingFollowsSatisfaction | BookingApi/src/Domain/Cargo/Cargo.cs:100-125 | Assigning an itinerary makes the cargo routed exactly when it satisfies the specification. Re-specifying so that the itinerary no longer satisfies it makes the cargo misrouted, with no estimated arrival and no next activity. |
| Cargoes.DeriveIsIdempotent | BookingApi/src/Domain/Cargo/Cargo.cs:142-157 | Deriving progress from the same history twice raises the same notifications. The delivery is the same apart from its calculation time. |

## Left out

- The .NET regular-expression engine. The UN/LOCODE pattern is a predicate on length-5 strings. .NET's `$` also matches before a final newline, so the real constructor accepts e.g. `"ABCDE\n"`; the model rejects it.
- Culture-dependent upper-casing. `ToUpper` is modelled on ASCII letters, the only letters the pattern admits.
- Every `GetHashCode`. They depend on runtime string and date hashes and on unchecked `int` overflow. `Distinct` is modelled through `Equals` alone.
- The domain-events registry (`DomainEvents`, `IEventHandler`, the event classes). Notifications are returned as a sequence from the cargo operations.
- Aliasing of mutable lists. `Schedule` stores the caller's list, and a voyage built by `VoyageBuilder` shares the builder's list, so a later `AddMovement` also changes voyages built earlier. The model's values are immutable.
- Null legs inside an itinerary's list. The source does not check for them, and the model's legs are never null.
- Null events inside a handling history's list. The constructor copies the list without checking its elements, so the source's ordering by completion date would throw on a null event in `MostRecentlyCompletedEvent` and `Delivery.DerivedFrom`. The model's events are never null, so that exception is not modelled.
- Messages of exceptions. Only the exception kind and parameter name are kept.
- `Delivery` equality and its atomic values. Nothing in the derivation uses them.
- `HandlingEvent.ToString`, `UnLocodeHelpers` and the test-only `FakeRouteSpecification`.
- ORM plumbing: protected parameterless constructors and `virtual` members.
- `TrackingId.cs` is not part of this model. Tracking ids are modelled from their unit tests as non-empty strings compared by value.
- The clock. Each reading of `DateTime.Now` is a parameter: `now` for a delivery's calculation time, and two readings for `CarrierMovement.Empty`, whose initializer reads the clock once per time. Dates are natural-number ticks, so no date arithmetic is modelled.
- The `ValueObject.Equals` loop as written is modelled and analysed (`ValueObject.EqualsByEnumeration`, `ValueObject.AtomsEqual`). Variable-length value objects (`Schedule`, `Itinerary`, `HandlingHistory`) use the corrected same-length comparison in their `Equals`; see Findings.
- Schedules.Empty: the sentinel's null list is modelled as an empty list. `Schedules.Equals` is therefore total and equates `Empty` with itself. The source throws a null-reference exception on any equality that involves `Empty`; `Schedules.EqualsAsRun` models that, and Findings records it.
- Schedules.Equals: uses the same-length comparison. The source also equates a schedule with one extra trailing movement to the shorter one (`Schedules.AsWrittenLoopOnSchedules`).
- Itineraries.Equals: uses the same-length comparison, so `Itineraries.EqualsFacts` rejects an itinerary with an extra trailing leg. The source accepts it on the receiver's side (`Itineraries.AsWrittenLoopOnItineraries`).
- HandlingHistories.Equals: uses the same-length comparison. The source also equates a history with one extra trailing event to the shorter one (`HandlingHistories.AsWrittenLoopOnHistories`).

## Findings

| source | as written | input that shows it | evidently intended | confidence | as-written member | corrected member |
|---|---|---|---|---|---|---|
| BookingApi/src/Domain/ValueObject.cs:60-73 | The loop advances the receiver's enumerator before the argument's. When the argument runs out first, the receiver has already stepped past one value, and the final check does not see it. | A schedule of movements `[m1, m2]` compared with a schedule `[m1]`: `Equals` is true, while the reverse comparison is false. | Two value objects are equal only when they have the same number of atomic values and these are pointwise equal. | not executed | Schedules.AsWrittenLoopOnSchedules | Schedules.EqualsIsEquivalence |
| BookingApi/src/Domain/Voyage/Schedule.cs:72-83 | The null-object `Schedule.Empty` is built by the parameterless constructor, which never assigns the list of movements. Enumerating its atomic values dereferences the null list. | `Schedule.Empty == Schedule.Empty`, `Schedule.Empty.Equals(s)` and `s.Equals(Schedule.Empty)` for any schedule `s` all throw a null-reference exception. | The null object compares as a schedule without movements, equal to itself. | not executed | Schedules.EqualsAsRun | Schedules.EqualsIsEquivalence |

=== FILE: cargo.dfy ===
/** The cargo aggregate root: identity, origin, route specification,
    itinerary and the delivery snapshot kept consistent with them. */
module Cargoes {
  import opened Wrappers
  import opened DateTimes
  import opened Locations
  import Voyages
  import opened TrackingIds
  import opened Itineraries
  import opened RouteSpecifications
  import opened HandlingHistories
  import opened Deliveries

  datatype Cargo = Cargo(
    trackingId: TrackingId,
    origin: Location,
    routeSpecification: RouteSpecification,
    itinerary: Option<Itinerary>,
    delivery: Delivery)

  /** The domain events an operation raises. */
  datatype Notification =
    | CargoHasBeenAssignedToRoute(cargo: TrackingId, oldItinerary: Option<Itinerary>)
    | CargoWasMisdirected(cargo: TrackingId)
    | CargoHasArrived(cargo: TrackingId)

  /** The cargo after an operation, with the notifications it raised. */
  datatype Transition = Transition(cargo: Cargo, notifications: seq<Notification>)

  /** The aggregate invariant: the delivery is the snapshot of the current
      specification and itinerary for the delivery's own last event. */
  predicate Consistent(c: Cargo) {
    c.delivery == Snapshot(c.delivery.lastEvent, c.itinerary, c.routeSpecification, c.delivery.calculatedAt)
  }

  /** The constructor: rejects a null tracking id, then a null specification.
      The origin is taken from the specification, there is no itinerary yet,
      and the delivery is derived from the empty history. */
  function New(trackingId: Option<TrackingId>, spec: Option<RouteSpecification>, now: DateTime): (r: Result<Cargo>)
    ensures trackingId.None? ==> r == Err(ArgumentNull("trackingId"))
    ensures trackingId.Some? && spec.None? ==> r == Err(ArgumentNull("routeSpecification"))
    ensures r.Ok? <==> trackingId.Some? && spec.Some?
    ensures r.Ok? ==> Consistent(r.value)
    ensures r.Ok? ==> && r.value.trackingId == trackingId.value
                      && r.value.origin == spec.value.origin
                      && r.value.routeSpecification == spec.value
                      && r.value.itinerary.None?
                      && r.value.delivery.lastEvent.None?
                      && r.value.delivery.routingStatus == NotRouted
                      && r.value.delivery.transportStatus == NotReceived
                      && r.value.delivery.LastKnownLocation() == Locations.Unknown()
                      && r.value.delivery.CurrentVoyage() == Voyages.Empty
                      && !r.value.delivery.misdirected
  {
    if trackingId.None? then Err(ArgumentNull("trackingId"))
    else if spec.None? then Err(ArgumentNull("routeSpecification"))
    else Ok(Cargo(trackingId.value, spec.value.origin, spec.value, None,
                  DerivedFrom(spec, None, Some(EmptyHistory), now).value))
  }

  /** `SpecifyNewRoute`: rejects a null specification; otherwise replaces the
      specification and re-derives the delivery for the same last event. */
  function SpecifyNewRoute(c: Cargo, spec: Option<RouteSpecification>, now: DateTime): (r: Result<Cargo>)
    ensures spec.None? <==> r == Err(ArgumentNull("routeSpecification"))
    ensures r.Ok? <==> spec.Some?
    ensures r.Ok? ==> Consistent(r.value)
    ensures r.Ok? ==> && r.value.routeSpecification == spec.value
                      && r.value.trackingId == c.trackingId && r.value.origin == c.origin
                      && r.value.itinerary == c.itinerary
                      && r.value.delivery.lastEvent == c.delivery.lastEvent
                      && r.value.delivery.routingStatus == CalculateRoutingStatus(c.itinerary, spec.value)
  {
    if spec.None? then Err(ArgumentNull("routeSpecification"))
    else Ok(c.(routeSpecification := spec.value,
               delivery := UpdateOnRouting(c.delivery, spec, c.itinerary, now).value))
  }

  /** `AssignToRoute`: rejects a null itinerary; otherwise attaches it,
      re-derives the delivery for the same last event, and raises one
      notification carrying the previous itinerary. */
  function AssignToRoute(c: Cargo, itinerary: Option<Itinerary>, now: DateTime): (r: Result<Transition>)
    ensures itinerary.None? <==> r == Err(ArgumentNull("itinerary"))
    ensures r.Ok? <==> itinerary.Some?
    ensures r.Ok? ==> Consistent(r.value.cargo)
    ensures r.Ok? ==> && r.value.cargo.itinerary == itinerary
                      && r.value.cargo.trackingId == c.trackingId && r.value.cargo.origin == c.origin
                      && r.value.cargo.routeSpecification == c.routeSpecification
                      && r.value.cargo.delivery.lastEvent == c.delivery.lastEvent
                      && r.value.cargo.delivery.routingStatus != NotRouted
                      && r.value.notifications == [CargoHasBeenAssignedToRoute(c.trackingId, c.itinerary)]
  {
    if itinerary.None? then Err(ArgumentNull("itinerary"))
    else
      var routed := c.(itinerary := itinerary,
                       delivery := UpdateOnRouting(c.delivery, Some(c.routeSpecification), itinerary, now).value);
      Ok(Transition(routed, [CargoHasBeenAssignedToRoute(c.trackingId, c.itinerary)]))
  }

  /** `DeriveDeliveryProgress`: a null history is rejected and the cargo is
      left as it was; otherwise the delivery is derived from the history, and
      a misdirected cargo raises a misdirection notification, or else a cargo
      unloaded at its destination raises an arrival notification. */
  function DeriveDeliveryProgress(c: Cargo, history: Option<HandlingHistory>, now: DateTime): (r: Result<Transition>)
    ensures history.None? <==> r == Err(ArgumentNull("handlingHistory"))
    ensures r.Ok? <==> history.Some?
    ensures r.Ok? ==> Consistent(r.value.cargo)
    ensures r.Ok? ==> && r.value.cargo == c.(delivery := r.value.cargo.delivery)
                      && r.value.cargo.delivery.lastEvent == MostRecentlyCompletedEvent(history.value)
    ensures r.Ok? ==> |r.value.notifications| <= 1
    ensures r.Ok? ==> (r.value.notifications == [CargoWasMisdirected(c.trackingId)] <==> r.value.cargo.delivery.misdirected)
    ensures r.Ok? ==> (r.value.notifications == [CargoHasArrived(c.trackingId)]
                       <==> !r.value.cargo.delivery.misdirected && r.value.cargo.delivery.isUnloadedAtDestination)
    ensures r.Ok? && !r.value.cargo.delivery.misdirected && !r.value.cargo.delivery.isUnloadedAtDestination
            ==> r.value.notifications == []
  {
    match DerivedFrom(Some(c.routeSpecification), c.itinerary, history, now)
    case Err(e) => Err(e)
    case Ok(d) =>
      var notifications :=
        if d.misdirected then [CargoWasMisdirected(c.trackingId)]
        else if d.isUnloadedAtDestination then [CargoHasArrived(c.trackingId)]
        else [];
      Ok(Transition(c.(delivery := d), notifications))
  }

  /** Cargoes are entities: equal exactly when their tracking ids are. */
  predicate Equals(a: Cargo, b: Cargo) {
    TrackingIds.Equals(a.trackingId, b.trackingId)
  }

  /** No operation changes a cargo's identity or origin, so a cargo stays
      equal to itself across its whole life. */
  lemma IdentityAndOriginAreStable(c: Cargo, spec: Option<RouteSpecification>, itinerary: Option<Itinerary>,
                                   history: Option<HandlingHistory>, now: DateTime)
    ensures SpecifyNewRoute(c, spec, now).Ok? ==>
      Equals(c, SpecifyNewRoute(c, spec, now).value) && SpecifyNewRoute(c, spec, now).value.origin == c.origin
    ensures AssignToRoute(c, itinerary, now).Ok? ==>
      Equals(c, AssignToRoute(c, itinerary, now).value.cargo) && AssignToRoute(c, itinerary, now).value.cargo.origin == c.origin
    ensures DeriveDeliveryProgress(c, history, now).Ok? ==>
      Equals(c, DeriveDeliveryProgress(c, history, now).value.cargo)
      && DeriveDeliveryProgress(c, history, now).value.cargo.origin == c.origin
  {
  }

  /** Once a new route is specified, the origin kept by the cargo may differ
      from the specification's origin. */
  lemma OriginSurvivesRespecification(c: Cargo, spec: RouteSpecification, now: DateTime)
    requires spec.origin != c.origin
    ensures SpecifyNewRoute(c, Some(spec), now).value.origin != SpecifyNewRoute(c, Some(spec), now).value.routeSpecification.origin
  {
  }

  /** Assigning a route that satisfies the specification makes the cargo
      routed; re-specifying so that the route no longer satisfies it makes the
      cargo misrouted, with no estimated arrival and no next activity. */
  lemma RoutingFollowsSatisfaction(c: Cargo, it: Itinerary, spec: RouteSpecification, now: DateTime)
    ensures IsSatisfiedBy(c.routeSpecification, Some(it)) <==>
      AssignToRoute(c, Some(it), now).value.cargo.delivery.routingStatus == Routed
    ensures c.itinerary.Some? && !IsSatisfiedBy(spec, c.itinerary) ==>
      var d := SpecifyNewRoute(c, Some(spec), now).value.delivery;
      d.routingStatus == Misrouted && d.eta.None? && d.nextExpectedActivity.None?
  {
  }

  /** Deriving progress from the same history twice raises the same
      notifications and leaves the same delivery up to the clock reading. */
  lemma DeriveIsIdempotent(c: Cargo, history: HandlingHistory, now: DateTime, later: DateTime)
    ensures var once := DeriveDeliveryProgress(c, Some(history), now).value;
      var twice := DeriveDeliveryProgress(once.cargo, Some(history), later).value;
      && twice.notifications == once.notifications
      && twice.cargo == once.cargo.(delivery := once.cargo.delivery.(calculatedAt := later))
  {
    var once := DeriveDeliveryProgress(c, Some(history), now).value;
    DerivationIsDeterministic(MostRecentlyCompletedEvent(history), c.itinerary, c.routeSpecification, later, now);
  }
}

=== FILE: carrier_movement.dfy ===
/** Carrier movements: one vessel trip from a departure to an arrival location. */
module CarrierMovements {
  import opened Wrappers
  import opened DateTimes
  import opened Locations

  datatype CarrierMovement = CarrierMovement(
    departureLocation: Location,
    arrivalLocation: Location,
    departureTime: DateTime,
    arrivalTime: DateTime)

  /** The constructor: rejects, in this order, a null departure location, a null
      arrival location, an unset departure time and an unset arrival time.
      Nothing relates the two times or the two locations. */
  function New(departure: Option<Location>, arrival: Option<Location>,
               departureTime: DateTime, arrivalTime: DateTime): (r: Result<CarrierMovement>)
    ensures departure.None? ==> r == Err(ArgumentNull("departureLocation"))
    ensures departure.Some? && arrival.None? ==> r == Err(ArgumentNull("arrivalLocation"))
    ensures departure.Some? && arrival.Some? && !IsSet(departureTime) ==> r == Err(Argument(""))
    ensures departure.Some? && arrival.Some? && IsSet(departureTime) && !IsSet(arrivalTime)
            ==> r == Err(Argument(""))
    ensures r.Ok? <==> departure.Some? && arrival.Some? && IsSet(departureTime) && IsSet(arrivalTime)
    ensures r.Ok? ==> r.value == CarrierMovement(departure.value, arrival.value, departureTime, arrivalTime)
  {
    if departure.None? then Err(ArgumentNull("departureLocation"))
    else if arrival.None? then Err(ArgumentNull("arrivalLocation"))
    else if !IsSet(departureTime) then Err(Argument(""))
    else if !IsSet(arrivalTime) then Err(Argument(""))
    else Ok(CarrierMovement(departure.value, arrival.value, departureTime, arrivalTime))
  }

  /** `CarrierMovement.Empty`: from and to `Unknown`, with the two clock
      readings the initializer takes, one for each time. */
  function Empty(departureNow: DateTime, arrivalNow: DateTime): (r: Result<CarrierMovement>)
    ensures r.Ok? <==> IsSet(departureNow) && IsSet(arrivalNow)
    ensures r.Ok? ==> r.value.departureLocation == Unknown() && r.value.arrivalLocation == Unknown()
                      && r.value.departureTime == departureNow && r.value.arrivalTime == arrivalNow
  {
    New(Some(Unknown()), Some(Unknown()), departureNow, arrivalNow)
  }

  /** A movement built by the constructor has both times set. */
  predicate Valid(m: CarrierMovement) {
    IsSet(m.departureTime) && IsSet(m.arrivalTime)
  }

  /** `Equals` for a non-null argument: the four atomic values in order, the
      locations compared by code. */
  predicate Equals(a: CarrierMovement, b: CarrierMovement) {
    && Same(a.departureLocation, b.departureLocation)
    && Same(a.arrivalLocation, b.arrivalLocation)
    && a.departureTime == b.departureTime
    && a.arrivalTime == b.arrivalTime
  }

  /** Swapping departure and arrival breaks equality unless both ends share a code. */
  lemma SwappedEndsDiffer(m: CarrierMovement)
    requires !Same(m.departureLocation, m.arrivalLocation)
    ensures !Equals(m, m.(departureLocation := m.arrivalLocation, arrivalLocation := m.departureLocation))
  {
  }

  lemma EqualsIsEquivalence(a: CarrierMovement, b: CarrierMovement, c: CarrierMovement)
    ensures Equals(a, a)
    ensures Equals(a, b) ==> Equals(b, a)
    ensures Equals(a, b) && Equals(b, c) ==> Equals(a, c)
  {
    SameIsCodeEquality(a.departureLocation, b.departureLocation);
    SameIsCodeEquality(b.departureLocation, c.departureLocation);
    SameIsCodeEquality(a.departureLocation, c.departureLocation);
    SameIsCodeEquality(a.departureLocation, a.departureLocation);
    SameIsCodeEquality(a.arrivalLocation, b.arrivalLocation);
    SameIsCodeEquality(b.arrivalLocation, c.arrivalLocation);
    SameIsCodeEquality(a.arrivalLocation, c.arrivalLocation);
    SameIsCodeEquality(a.arrivalLocation, a.arrivalLocation);
  }
}

=== FILE: date_time.dfy ===
/** Points in time, as the ticks of a `DateTime`. */
module DateTimes {
  import opened Wrappers

  /** A `DateTime` is a non-negative tick count. */
  type DateTime = nat

  /** `default(DateTime)`: the value the constructors reject as "not set". */
  const Default: DateTime := 0

  predicate IsSet(t: DateTime) {
    t != Default
  }

  /** The lifted comparison `a > b` of a `DateTime` against a `DateTime?`:
      false whenever `b` has no value. */
  predicate LiftedGreater(a: DateTime, b: Option<DateTime>) {
    b.Some? && a > b.value
  }
}

=== FILE: delivery.dfy ===
/** Delivery: the snapshot of a cargo's transport and routing status derived
    from its route specification, its itinerary and its last handling event. */
module Deliveries {
  import opened Wrappers
  import opened DateTimes
  import opened Locations
  import opened Voyages
  import opened Legs
  import opened Itineraries
  import opened RouteSpecifications
  import opened HandlingEventTypes
  import opened HandlingEvents
  import opened HandlingHistories
  import opened HandlingActivities

  datatype TransportStatus = NotReceived | InPort | OnboardCarrier | Claimed | Unknown
  datatype RoutingStatus = NotRouted | Misrouted | Routed

  /** The fields of the snapshot; `lastKnown` and `voyage` are the raw,
      possibly null, fields behind the two accessors below. */
  datatype Delivery = Delivery(
    transportStatus: TransportStatus,
    lastKnown: Option<Location>,
    voyage: Option<Voyage>,
    misdirected: bool,
    eta: Option<DateTime>,
    nextExpectedActivity: Option<HandlingActivity>,
    isUnloadedAtDestination: bool,
    routingStatus: RoutingStatus,
    calculatedAt: DateTime,
    lastEvent: Option<HandlingEvent>)
  {
    /** `LastKnownLocation`: `Location.Unknown` stands in for no location. */
    function LastKnownLocation(): Location {
      lastKnown.GetOr(Locations.Unknown())
    }

    /** `CurrentVoyage`: `Voyage.Empty` stands in for no voyage. */
    function CurrentVoyage(): Voyage {
      voyage.GetOr(Voyages.Empty)
    }

    /** Routed and not misdirected. */
    predicate OnTrack() {
      routingStatus == Routed && !misdirected
    }
  }

  // ---------------------------------------------------------------------------
  // The calculations of the private constructor, in its order

  /** Misdirected: the last event is not expected by the itinerary. Without an
      event or without an itinerary the cargo is never misdirected. */
  function CalculateMisdirectionStatus(lastEvent: Option<HandlingEvent>, itinerary: Option<Itinerary>): (r: bool)
    ensures r <==> lastEvent.Some? && itinerary.Some? && !IsExpected(itinerary.value, lastEvent.value)
  {
    if lastEvent.None? then false
    else if itinerary.None? then false
    else !IsExpected(itinerary.value, lastEvent.value)
  }

  function CalculateRoutingStatus(itinerary: Option<Itinerary>, spec: RouteSpecification): (r: RoutingStatus)
    ensures r == NotRouted <==> itinerary.None?
    ensures r == Routed <==> IsSatisfiedBy(spec, itinerary)
  {
    if itinerary.None? then NotRouted
    else if IsSatisfiedBy(spec, itinerary) then Routed
    else Misrouted
  }

  /** The transport status follows the type of the last event. */
  function CalculateTransportStatus(lastEvent: Option<HandlingEvent>): (r: TransportStatus)
    ensures r != Unknown
    ensures r == NotReceived <==> lastEvent.None?
    ensures r == OnboardCarrier <==> lastEvent.Some? && lastEvent.value.eventType == Load
    ensures r == Claimed <==> lastEvent.Some? && lastEvent.value.eventType == Claim
  {
    if lastEvent.None? then NotReceived
    else match lastEvent.value.eventType
      case Load => OnboardCarrier
      case Unload => InPort
      case Receive => InPort
      case Customs => InPort
      case Claim => Claimed
  }

  function CalculateLastKnownLocation(lastEvent: Option<HandlingEvent>): (r: Option<Location>)
    ensures r.Some? <==> lastEvent.Some?
    ensures r.Some? ==> r.value == lastEvent.value.location
  {
    if lastEvent.Some? then Some(lastEvent.value.location) else None
  }

  /** The voyage of the last event while the cargo is on board, otherwise none. */
  function CalculateCurrentVoyage(transportStatus: TransportStatus, lastEvent: Option<HandlingEvent>): (r: Option<Voyage>)
    ensures r.Some? <==> transportStatus == OnboardCarrier && lastEvent.Some?
    ensures r.Some? ==> r.value == VoyageOf(lastEvent.value)
  {
    if transportStatus == OnboardCarrier && lastEvent.Some? then Some(VoyageOf(lastEvent.value)) else None
  }

  /** The final arrival date of the itinerary while on track, otherwise none. */
  function CalculateEta(onTrack: bool, itinerary: Option<Itinerary>): (r: Option<DateTime>)
    requires onTrack ==> itinerary.Some?
    ensures r.Some? ==> onTrack && r == FinalArrivalDate(itinerary.value)
    ensures onTrack ==> r == FinalArrivalDate(itinerary.value)
  {
    if onTrack then FinalArrivalDate(itinerary.value) else None
  }

  /** The next activity the itinerary calls for. Off track there is none.
      Before any event, the cargo is to be received at the origin. After a
      receive, it is to be loaded onto the first leg's voyage. After a load,
      it is to be unloaded at the end of the first leg that loads at that
      place, on that leg's voyage. After an unload, it is to be loaded at the
      start of the leg following the first leg that unloads at that place
      (with no voyage named), or claimed there when that leg is the last.
      After a claim or customs there is nothing. */
  function CalculateNextExpectedActivity(onTrack: bool, lastEvent: Option<HandlingEvent>,
                                         spec: RouteSpecification, itinerary: Option<Itinerary>): (r: Option<HandlingActivity>)
    requires onTrack ==> IsSatisfiedBy(spec, itinerary)
    ensures !onTrack ==> r.None?
    ensures onTrack && lastEvent.None? ==> r == Some(HandlingActivity(Receive, spec.origin, None))
    ensures onTrack && lastEvent.Some? && lastEvent.value.eventType == Receive
            ==> r == Some(HandlingActivity(Load, itinerary.value.legs[0].loadLocation, Some(itinerary.value.legs[0].voyage)))
    ensures onTrack && lastEvent.Some? && lastEvent.value.eventType == Load ==>
      var legs := itinerary.value.legs;
      var f := FirstLegAt(legs, LoadStop, lastEvent.value.location);
      r == (if f.Some? then Some(HandlingActivity(Unload, legs[f.value].unloadLocation, Some(legs[f.value].voyage))) else None)
    ensures onTrack && lastEvent.Some? && lastEvent.value.eventType == Unload ==>
      var legs := itinerary.value.legs;
      var f := FirstLegAt(legs, UnloadStop, lastEvent.value.location);
      r == (if f.None? then None
            else if f.value + 1 < |legs| then Some(HandlingActivity(Load, legs[f.value + 1].loadLocation, None))
            else Some(HandlingActivity(Claim, legs[f.value].unloadLocation, None)))
    ensures lastEvent.Some? && (lastEvent.value.eventType == Claim || lastEvent.value.eventType == Customs) ==> r.None?
    ensures r.Some? ==> r.value.eventType != Customs
  {
    if !onTrack then None
    else if lastEvent.None? then Some(HandlingActivity(Receive, spec.origin, None))
    else
      var legs, loc := itinerary.value.legs, lastEvent.value.location;
      match lastEvent.value.eventType
      case Load =>
        (match FirstLegAt(legs, LoadStop, loc)
         case None => None
         case Some(i) => Some(HandlingActivity(Unload, legs[i].unloadLocation, Some(legs[i].voyage))))
      case Unload =>
        (match FirstLegAt(legs, UnloadStop, loc)
         case None => None
         case Some(i) =>
           if i + 1 < |legs| then Some(HandlingActivity(Load, legs[i + 1].loadLocation, None))
           else Some(HandlingActivity(Claim, legs[i].unloadLocation, None)))
      case Receive => Some(HandlingActivity(Load, legs[0].loadLocation, Some(legs[0].voyage)))
      case Claim => None
      case Customs => None
  }

  /** Unloaded at destination: the last event is an unload at the
      specification's destination. */
  function CalculateUnloadedAtDestination(lastEvent: Option<HandlingEvent>, spec: RouteSpecification): (r: bool)
    ensures r <==> lastEvent.Some? && lastEvent.value.eventType == Unload
                   && lastEvent.value.location.unLocode.code == spec.destination.unLocode.code
  {
    SameIsCodeEquality(spec.destination, if lastEvent.Some? then lastEvent.value.location else spec.destination);
    lastEvent.Some? && lastEvent.value.eventType == Unload && Same(spec.destination, lastEvent.value.location)
  }

  /** The private constructor: every field is derived from the last event,
      the itinerary and the specification; `now` is the clock reading. */
  function Snapshot(lastEvent: Option<HandlingEvent>, itinerary: Option<Itinerary>, spec: RouteSpecification, now: DateTime): (d: Delivery)
    ensures d.lastEvent == lastEvent && d.calculatedAt == now
    ensures d.OnTrack() ==> IsSatisfiedBy(spec, itinerary) && !d.misdirected
    ensures d.voyage.Some? ==> d.transportStatus == OnboardCarrier
    ensures d.eta.Some? <==> d.OnTrack()
    ensures d.nextExpectedActivity.Some? ==> d.OnTrack()
  {
    var misdirected := CalculateMisdirectionStatus(lastEvent, itinerary);
    var routingStatus := CalculateRoutingStatus(itinerary, spec);
    var transportStatus := CalculateTransportStatus(lastEvent);
    var onTrack := routingStatus == Routed && !misdirected;
    Delivery(
      transportStatus,
      CalculateLastKnownLocation(lastEvent),
      CalculateCurrentVoyage(transportStatus, lastEvent),
      misdirected,
      CalculateEta(onTrack, itinerary),
      CalculateNextExpectedActivity(onTrack, lastEvent, spec, itinerary),
      CalculateUnloadedAtDestination(lastEvent, spec),
      routingStatus,
      now,
      lastEvent)
  }

  /** `DerivedFrom`: rejects a null specification, then a null history;
      otherwise the snapshot of the history's most recently completed event. */
  function DerivedFrom(spec: Option<RouteSpecification>, itinerary: Option<Itinerary>,
                       history: Option<HandlingHistory>, now: DateTime): (r: Result<Delivery>)
    ensures spec.None? ==> r == Err(ArgumentNull("specification"))
    ensures spec.Some? && history.None? ==> r == Err(ArgumentNull("handlingHistory"))
    ensures r.Ok? <==> spec.Some? && history.Some?
    ensures r.Ok? ==> r.value == Snapshot(MostRecentlyCompletedEvent(history.value), itinerary, spec.value, now)
  {
    if spec.None? then Err(ArgumentNull("specification"))
    else if history.None? then Err(ArgumentNull("handlingHistory"))
    else Ok(Snapshot(MostRecentlyCompletedEvent(history.value), itinerary, spec.value, now))
  }

  /** `UpdateOnRouting`: a new snapshot for the same last event; the null
      check passes its message where the parameter name belongs. */
  function UpdateOnRouting(d: Delivery, spec: Option<RouteSpecification>, itinerary: Option<Itinerary>, now: DateTime): (r: Result<Delivery>)
    ensures spec.None? <==> r == Err(ArgumentNull("Route specification is required."))
    ensures r.Ok? <==> spec.Some?
    ensures r.Ok? ==> r.value == Snapshot(d.lastEvent, itinerary, spec.value, now)
  {
    if spec.None? then Err(ArgumentNull("Route specification is required.")) else Ok(Snapshot(d.lastEvent, itinerary, spec.value, now))
  }

  // ---------------------------------------------------------------------------
  // Properties of the derived status

  /** Without any handling the cargo is not received, at an unknown location,
      on no voyage, not misdirected, not unloaded at its destination, and, when
      on track, expected to be received at its origin. */
  lemma NoHistoryMeansNotReceived(spec: RouteSpecification, itinerary: Option<Itinerary>, now: DateTime)
    ensures var d := DerivedFrom(Some(spec), itinerary, Some(EmptyHistory), now).value;
      && d.transportStatus == NotReceived
      && d.LastKnownLocation() == Locations.Unknown()
      && d.CurrentVoyage() == Voyages.Empty
      && !d.misdirected && !d.isUnloadedAtDestination
      && (d.OnTrack() ==> d.nextExpectedActivity == Some(HandlingActivity(Receive, spec.origin, None)))
  {
  }

  /** A cargo without an itinerary is not routed, never misdirected, has no
      estimated arrival and no next activity. */
  lemma NoItineraryMeansNotRouted(lastEvent: Option<HandlingEvent>, spec: RouteSpecification, now: DateTime)
    ensures var d := Snapshot(lastEvent, None, spec, now);
      d.routingStatus == NotRouted && !d.misdirected && d.eta.None? && d.nextExpectedActivity.None?
  {
  }

  /** The snapshot's status facts from the last event: the current voyage is
      the event's voyage exactly when the last event is a load, and the last
      known location is the event's location. */
  lemma StatusFollowsLastEvent(e: HandlingEvent, itinerary: Option<Itinerary>, spec: RouteSpecification, now: DateTime)
    ensures var d := Snapshot(Some(e), itinerary, spec, now);
      && d.LastKnownLocation() == e.location
      && (e.eventType == Load ==> d.transportStatus == OnboardCarrier && d.CurrentVoyage() == VoyageOf(e))
      && (e.eventType != Load ==> d.CurrentVoyage() == Voyages.Empty && d.transportStatus != OnboardCarrier)
      && (e.eventType == Claim <==> d.transportStatus == Claimed)
  {
  }

  /** Re-routing changes no handling-derived field: transport status, last
      known location, current voyage and unloaded-at-destination (for the same
      destination) stay as they were. */
  lemma UpdateOnRoutingKeepsHandlingStatus(lastEvent: Option<HandlingEvent>, itinerary: Option<Itinerary>,
                                           spec: RouteSpecification, before: DateTime,
                                           newSpec: RouteSpecification, newItinerary: Option<Itinerary>, now: DateTime)
    requires newSpec.destination == spec.destination
    ensures var d := Snapshot(lastEvent, itinerary, spec, before);
      var u := UpdateOnRouting(d, Some(newSpec), newItinerary, now).value;
      && u.lastEvent == d.lastEvent
      && u.transportStatus == d.transportStatus
      && u.LastKnownLocation() == d.LastKnownLocation()
      && u.CurrentVoyage() == d.CurrentVoyage()
      && u.isUnloadedAtDestination == d.isUnloadedAtDestination
  {
  }

  /** Re-deriving with the same inputs at another time gives the same status. */
  lemma DerivationIsDeterministic(lastEvent: Option<HandlingEvent>, itinerary: Option<Itinerary>,
                                  spec: RouteSpecification, t1: DateTime, t2: DateTime)
    ensures Snapshot(lastEvent, itinerary, spec, t1) == Snapshot(lastEvent, itinerary, spec, t2).(calculatedAt := t1)
  {
  }

  /** On track, the estimated arrival is the arrival of the itinerary's last
      leg, which is before the deadline. */
  lemma OnTrackEtaMeetsDeadline(lastEvent: Option<HandlingEvent>, it: Itinerary, spec: RouteSpecification, now: DateTime)
    requires Snapshot(lastEvent, Some(it), spec, now).OnTrack()
    ensures |it.legs| > 0
    ensures Snapshot(lastEvent, Some(it), spec, now).eta == Some(it.legs[|it.legs| - 1].unloadDate)
    ensures it.legs[|it.legs| - 1].unloadDate < spec.arrivalDeadline
  {
    SatisfiedByLegs(spec, it);
  }

  /** On track, after a receive or a load the next activity is itself
      expected by the itinerary. */
  lemma {:induction false} NextActivityIsExpected(e: HandlingEvent, it: Itinerary, spec: RouteSpecification, now: DateTime,
                                                  next: HandlingEvent)
    requires Snapshot(Some(e), Some(it), spec, now).OnTrack()
    requires e.eventType == Receive || e.eventType == Load
    requires var a := Snapshot(Some(e), Some(it), spec, now).nextExpectedActivity;
      a.Some? && next.eventType == a.value.eventType && next.location == a.value.location && next.voyageField == a.value.voyage
    ensures IsExpected(it, next)
  {
    SatisfiedByLegs(spec, it);
    var a := Snapshot(Some(e), Some(it), spec, now).nextExpectedActivity.value;
    if e.eventType == Receive {
      EqualityFacts(it.legs[0].loadLocation, it.legs[0].loadLocation);
      assert Same(StopLocation(it.legs[0], LoadStop), next.location);
    } else {
      var i := FirstLegAt(it.legs, LoadStop, e.location).value;
      EqualityFacts(it.legs[i].unloadLocation, it.legs[i].unloadLocation);
      assert Same(StopLocation(it.legs[i], UnloadStop), next.location);
    }
  }

  /** An expected load or unload always finds a leg with that end at the
      event's location. */
  lemma ExpectedHandlingFindsLeg(it: Itinerary, e: HandlingEvent, stop: Stop)
    requires !IsEmpty(it) && IsExpected(it, e)
    requires (e.eventType == Load && stop == LoadStop) || (e.eventType == Unload && stop == UnloadStop)
    ensures FirstLegAt(it.legs, stop, e.location).Some?
  {
    var i :| 0 <= i < |it.legs| && Same(StopLocation(it.legs[i], stop), e.location)
             && SameInstance(it.legs[i].voyage, VoyageOf(e));
    assert !(forall j :: 0 <= j < |it.legs| ==> !Same(StopLocation(it.legs[j], stop), e.location));
  }

  /** On track, there is a next activity exactly when the last handling was
      not a claim or customs: an expected load or unload always finds its leg.
      A claim is only ever expected at the specification's destination. */
  lemma {:induction false} OnTrackNextActivity(lastEvent: Option<HandlingEvent>, it: Itinerary,
                                               spec: RouteSpecification, now: DateTime)
    requires Snapshot(lastEvent, Some(it), spec, now).OnTrack()
    ensures var a := Snapshot(lastEvent, Some(it), spec, now).nextExpectedActivity;
      a.Some? <==> lastEvent.None? || (lastEvent.value.eventType != Claim && lastEvent.value.eventType != Customs)
    ensures var a := Snapshot(lastEvent, Some(it), spec, now).nextExpectedActivity;
      a.Some? && a.value.eventType == Claim ==> Same(a.value.location, spec.destination)
  {
    SatisfiedByLegs(spec, it);
    var last := it.legs[|it.legs| - 1].unloadLocation;
    SameIsCodeEquality(last, spec.destination);
    if lastEvent.Some? && lastEvent.value.eventType == Load {
      assert IsExpected(it, lastEvent.value);
      ExpectedHandlingFindsLeg(it, lastEvent.value, LoadStop);
    } else if lastEvent.Some? && lastEvent.value.eventType == Unload {
      assert IsExpected(it, lastEvent.value);
      ExpectedHandlingFindsLeg(it, lastEvent.value, UnloadStop);
    }
  }

  /** After an unload at the end of the first of two legs, the next activity
      is a load at the start of the second leg, naming no voyage, unlike every
      other load or unload activity. */
  lemma NextLoadAfterUnloadNamesNoVoyage(e: HandlingEvent, first: Leg, second: Leg, spec: RouteSpecification, now: DateTime)
    requires Snapshot(Some(e), Some(Itinerary([first, second])), spec, now).OnTrack()
    requires e.eventType == Unload && Same(first.unloadLocation, e.location)
    ensures Snapshot(Some(e), Some(Itinerary([first, second])), spec, now).nextExpectedActivity
            == Some(HandlingActivity(Load, second.loadLocation, None))
  {
  }
}

=== FILE: handling_activity.dfy ===
/** Handling activities: a handling a cargo is expected to undergo next. */
module HandlingActivities {
  import opened Wrappers
  import opened Locations
  import opened Voyages
  import opened HandlingEventTypes
  import opened HandlingEvents

  datatype HandlingActivity = HandlingActivity(eventType: HandlingEventType, location: Location, voyage: Option<Voyage>)

  /** The constructor without a voyage: rejects only a null location. */
  function New(eventType: HandlingEventType, location: Option<Location>): (r: Result<HandlingActivity>)
    ensures location.None? <==> r == Err(ArgumentNull("location"))
    ensures r.Ok? <==> location.Some?
    ensures r.Ok? ==> r.value == HandlingActivity(eventType, location.value, None)
  {
    if location.None? then Err(ArgumentNull("location")) else Ok(HandlingActivity(eventType, location.value, None))
  }

  /** The constructor with a voyage: rejects a null location, then a null
      voyage. Nothing ties the voyage to the type. */
  function NewWithVoyage(eventType: HandlingEventType, location: Option<Location>, voyage: Option<Voyage>): (r: Result<HandlingActivity>)
    ensures location.None? ==> r == Err(ArgumentNull("location"))
    ensures location.Some? && voyage.None? ==> r == Err(ArgumentNull("voyage"))
    ensures r.Ok? <==> location.Some? && voyage.Some?
    ensures r.Ok? ==> r.value == HandlingActivity(eventType, location.value, voyage)
  {
    if location.None? then Err(ArgumentNull("location"))
    else if voyage.None? then Err(ArgumentNull("voyage"))
    else Ok(HandlingActivity(eventType, location.value, voyage))
  }

  /** `Equals` for a non-null argument: type, location by code, and voyage by
      number under the null rule. */
  predicate Equals(a: HandlingActivity, b: HandlingActivity) {
    && a.eventType == b.eventType
    && Same(a.location, b.location)
    && SameVoyageValue(a.voyage, b.voyage)
  }

  /** Activities built by the two constructors never equal each other, even
      with the same type and location. */
  lemma VoyageMakesADifference(t: HandlingEventType, l: Location, v: Voyage)
    ensures New(t, Some(l)).Ok? && NewWithVoyage(t, Some(l), Some(v)).Ok?
    ensures !Equals(New(t, Some(l)).value, NewWithVoyage(t, Some(l), Some(v)).value)
    ensures !Equals(NewWithVoyage(t, Some(l), Some(v)).value, New(t, Some(l)).value)
  {
  }
}

=== FILE: handling_event.dfy ===
/** Handling events: what actually happened to a cargo, where, when, and on
    which voyage. A cargo is referred to by its tracking id, the only part of it
    event equality looks at. */
module HandlingEvents {
  import opened Wrappers
  import opened DateTimes
  import ValueObject
  import opened Locations
  import opened TrackingIds
  import opened Voyages
  import opened HandlingEventTypes

  datatype HandlingEvent = HandlingEvent(
    eventType: HandlingEventType,
    location: Location,
    registrationDate: DateTime,
    completionDate: DateTime,
    cargo: TrackingId,
    voyageField: Option<Voyage>)

  /** What both constructors guarantee: both dates set, and a voyage exactly
      when the type requires one. */
  predicate Valid(e: HandlingEvent) {
    && IsSet(e.registrationDate) && IsSet(e.completionDate)
    && (e.voyageField.Some? <==> RequiresVoyage(e.eventType))
  }

  /** The constructor with a voyage: rejects, in this order, a null cargo,
      location or voyage, an unset registration date, an unset completion date,
      and a type that prohibits a voyage. */
  function NewWithVoyage(eventType: HandlingEventType, location: Option<Location>,
                         registrationDate: DateTime, completionDate: DateTime,
                         cargo: Option<TrackingId>, voyage: Option<Voyage>): (r: Result<HandlingEvent>)
    ensures cargo.None? ==> r == Err(ArgumentNull("cargo"))
    ensures cargo.Some? && location.None? ==> r == Err(ArgumentNull("location"))
    ensures cargo.Some? && location.Some? && voyage.None? ==> r == Err(ArgumentNull("voyage"))
    ensures cargo.Some? && location.Some? && voyage.Some? && !IsSet(registrationDate)
            ==> r == Err(Argument("registrationDate"))
    ensures cargo.Some? && location.Some? && voyage.Some? && IsSet(registrationDate) && !IsSet(completionDate)
            ==> r == Err(Argument("completionDate"))
    ensures r.Ok? <==> cargo.Some? && location.Some? && voyage.Some? && IsSet(registrationDate)
                       && IsSet(completionDate) && (eventType == Load || eventType == Unload)
    ensures r.Ok? ==> Valid(r.value) && r.value.eventType == eventType && r.value.location == location.value
                      && r.value.registrationDate == registrationDate && r.value.completionDate == completionDate
                      && r.value.cargo == cargo.value && VoyageOf(r.value) == voyage.value
  {
    if cargo.None? then Err(ArgumentNull("cargo"))
    else if location.None? then Err(ArgumentNull("location"))
    else if voyage.None? then Err(ArgumentNull("voyage"))
    else if !IsSet(registrationDate) then Err(Argument("registrationDate"))
    else if !IsSet(completionDate) then Err(Argument("completionDate"))
    else if ProhibitsVoyage(eventType) then Err(Argument("eventType"))
    else Ok(HandlingEvent(eventType, location.value, registrationDate, completionDate, cargo.value, voyage))
  }

  /** The constructor without a voyage: rejects, in this order, a null cargo or
      location, an unset registration or completion date, and a type that
      requires a voyage. */
  function New(eventType: HandlingEventType, location: Option<Location>,
               registrationDate: DateTime, completionDate: DateTime,
               cargo: Option<TrackingId>): (r: Result<HandlingEvent>)
    ensures cargo.None? ==> r == Err(ArgumentNull("cargo"))
    ensures cargo.Some? && location.None? ==> r == Err(ArgumentNull("location"))
    ensures cargo.Some? && location.Some? && !IsSet(registrationDate) ==> r == Err(Argument("registrationDate"))
    ensures cargo.Some? && location.Some? && IsSet(registrationDate) && !IsSet(completionDate)
            ==> r == Err(Argument("completionDate"))
    ensures r.Ok? <==> cargo.Some? && location.Some? && IsSet(registrationDate) && IsSet(completionDate)
                       && eventType != Load && eventType != Unload
    ensures r.Ok? ==> Valid(r.value) && r.value.eventType == eventType && r.value.location == location.value
                      && r.value.registrationDate == registrationDate && r.value.completionDate == completionDate
                      && r.value.cargo == cargo.value && VoyageOf(r.value) == Voyages.Empty
  {
    if cargo.None? then Err(ArgumentNull("cargo"))
    else if location.None? then Err(ArgumentNull("location"))
    else if !IsSet(registrationDate) then Err(Argument("registrationDate"))
    else if !IsSet(completionDate) then Err(Argument("completionDate"))
    else if RequiresVoyage(eventType) then Err(Argument("eventType"))
    else Ok(HandlingEvent(eventType, location.value, registrationDate, completionDate, cargo.value, None))
  }

  /** The `Voyage` accessor: `Voyage.Empty` stands in for a missing voyage. */
  function VoyageOf(e: HandlingEvent): Voyage {
    e.voyageField.GetOr(Voyages.Empty)
  }

  /** A voyage atom compared as the loop of `Equals` does: the null rule,
      then `Voyage.Equals`, which looks at the number only. */
  predicate SameVoyageValue(a: Option<Voyage>, b: Option<Voyage>) {
    ValueObject.EqualOperator(a, b, (v: Voyage, w: Voyage) => Voyages.Equals(v, ValueObject.Instance(w)))
  }

  /** `Equals` for a non-null argument: type, location, completion date, cargo
      and voyage are compared; the registration date is not. */
  predicate Equals(a: HandlingEvent, b: HandlingEvent) {
    && a.eventType == b.eventType
    && Same(a.location, b.location)
    && a.completionDate == b.completionDate
    && TrackingIds.Equals(a.cargo, b.cargo)
    && SameVoyageValue(a.voyageField, b.voyageField)
  }

  /** Event equality is an equivalence relation. */
  lemma EqualsIsEquivalence(a: HandlingEvent, b: HandlingEvent, c: HandlingEvent)
    ensures Equals(a, a)
    ensures Equals(a, b) ==> Equals(b, a)
    ensures Equals(a, b) && Equals(b, c) ==> Equals(a, c)
  {
    SameIsCodeEquality(a.location, b.location);
    SameIsCodeEquality(b.location, c.location);
    SameIsCodeEquality(a.location, c.location);
    SameIsCodeEquality(a.location, a.location);
    if a.voyageField.Some? {
      VoyageNumbers.EqualsIsStringEquality(a.voyageField.value.number, a.voyageField.value.number);
      if b.voyageField.Some? {
        VoyageNumbers.EqualsIsStringEquality(a.voyageField.value.number, b.voyageField.value.number);
        VoyageNumbers.EqualsIsStringEquality(b.voyageField.value.number, a.voyageField.value.number);
        if c.voyageField.Some? {
          VoyageNumbers.EqualsIsStringEquality(b.voyageField.value.number, c.voyageField.value.number);
          VoyageNumbers.EqualsIsStringEquality(a.voyageField.value.number, c.voyageField.value.number);
        }
      }
    }
  }

  /** Two reports of one event that differ only in registration date are equal,
      in both directions; events built from the same arguments are equal. */
  lemma RegistrationDateIsIgnored(e: HandlingEvent, t: DateTime)
    ensures Equals(e, e.(registrationDate := t)) && Equals(e.(registrationDate := t), e)
  {
    EqualsIsEquivalence(e, e.(registrationDate := t), e);
  }

  /** Equal events happened at the same time. */
  lemma EqualEventsShareCompletion(a: HandlingEvent, b: HandlingEvent)
    requires Equals(a, b)
    ensures a.completionDate == b.completionDate
  {
  }
}

=== FILE: handling_event_type.dfy ===
/** The five kinds of handling event, and whether each needs a voyage. */
module HandlingEventTypes {

  datatype HandlingEventType = Load | Unload | Receive | Claim | Customs

  /** `RequiresVoyage`, as the chain of tests of the source; its throwing
      fallback cannot be reached for the five declared types. */
  predicate RequiresVoyage(t: HandlingEventType)
    ensures RequiresVoyage(t) <==> t == Load || t == Unload
  {
    if t.Load? then true
    else if t.Unload? then true
    else if t.Claim? then false
    else if t.Receive? then false
    else if t.Customs? then false
    else assert false; false
  }

  /** `ProhibitsVoyage`: the exact negation of `RequiresVoyage`. */
  predicate ProhibitsVoyage(t: HandlingEventType)
    ensures ProhibitsVoyage(t) <==> t == Receive || t == Claim || t == Customs
    ensures ProhibitsVoyage(t) != RequiresVoyage(t)
  {
    !RequiresVoyage(t)
  }
}

=== FILE: handling_history.dfy ===
/** Handling histories: the registered handling events of one cargo, and the
    view of them that delivery-status derivation reads: duplicates removed,
    ordered by completion time, last one most recent. */
module HandlingHistories {
  import opened Wrappers
  import opened DateTimes
  import ValueObject
  import opened HandlingEvents

  datatype HandlingHistory = HandlingHistory(events: seq<HandlingEvent>)

  /** The constructor: rejects only a null list; an empty list is allowed. */
  function New(events: Option<seq<HandlingEvent>>): (r: Result<HandlingHistory>)
    ensures events.None? <==> r == Err(ArgumentNull("events"))
    ensures r.Ok? <==> events.Some?
    ensures r.Ok? ==> r.value.events == events.value
  {
    if events.None? then Err(ArgumentNull("events")) else Ok(HandlingHistory(events.value))
  }

  /** `HandlingHistory.EmptyHistory`. */
  const EmptyHistory: HandlingHistory := HandlingHistory([])

  // ---------------------------------------------------------------------------
  // Removing duplicate registrations

  /** Some element of `s` equals `x` as handling events. */
  predicate Contains(s: seq<HandlingEvent>, x: HandlingEvent) {
    exists i :: 0 <= i < |s| && HandlingEvents.Equals(s[i], x)
  }

  /** No two elements of `s` are equal as handling events. */
  predicate Unique(s: seq<HandlingEvent>) {
    forall i, j :: 0 <= i < j < |s| ==> !HandlingEvents.Equals(s[i], s[j])
  }

  /** `Distinct()`: each event is kept unless an equal one was kept before
      it, so the first of every group of equal registrations survives, in the
      order of the input. */
  function Distinct(s: seq<HandlingEvent>): (d: seq<HandlingEvent>)
    ensures |d| <= |s|
    ensures |s| > 0 ==> |d| > 0
    ensures forall y :: y in d ==> y in s
  {
    if |s| == 0 then []
    else
      var kept := Distinct(s[..|s| - 1]);
      if Contains(kept, s[|s| - 1]) then kept else kept + [s[|s| - 1]]
  }

  /** The view holds no two equal events. */
  lemma {:induction false} DistinctIsUnique(s: seq<HandlingEvent>)
    ensures Unique(Distinct(s))
  {
    if |s| > 0 {
      DistinctIsUnique(s[..|s| - 1]);
    }
  }

  /** Removing duplicates loses no event: an event equals something in the
      view exactly when it equals something in the input. */
  lemma {:induction false} DistinctCovers(s: seq<HandlingEvent>, x: HandlingEvent)
    ensures Contains(Distinct(s), x) <==> Contains(s, x)
  {
    var d := Distinct(s);
    if Contains(d, x) {
      var i :| 0 <= i < |d| && HandlingEvents.Equals(d[i], x);
      assert d[i] in s;
      var j :| 0 <= j < |s| && s[j] == d[i];
    }
    if |s| > 0 && Contains(s, x) {
      var init, last := s[..|s| - 1], s[|s| - 1];
      var j :| 0 <= j < |s| && HandlingEvents.Equals(s[j], x);
      if j < |s| - 1 {
        assert init[j] == s[j];
        DistinctCovers(init, x);
        var k :| 0 <= k < |Distinct(init)| && HandlingEvents.Equals(Distinct(init)[k], x);
        assert d[k] == Distinct(init)[k];
      } else if Contains(Distinct(init), last) {
        var k :| 0 <= k < |Distinct(init)| && HandlingEvents.Equals(Distinct(init)[k], last);
        EqualsIsEquivalence(Distinct(init)[k], last, x);
        assert d[k] == Distinct(init)[k];
      } else {
        assert d[|d| - 1] == last;
      }
    }
  }

  /** The first registration of every event survives. */
  lemma {:induction false} DistinctKeepsFirstOccurrences(s: seq<HandlingEvent>, i: nat)
    requires i < |s|
    requires forall j :: 0 <= j < i ==> !HandlingEvents.Equals(s[j], s[i])
    ensures s[i] in Distinct(s)
  {
    var init := s[..|s| - 1];
    if i == |s| - 1 {
      DistinctCovers(init, s[i]);
      forall j | 0 <= j < |init|
        ensures !HandlingEvents.Equals(init[j], s[i])
      {
        assert init[j] == s[j];
      }
      assert Distinct(s) == Distinct(init) + [s[i]];
    } else {
      assert forall j :: 0 <= j <= i ==> init[j] == s[j];
      DistinctKeepsFirstOccurrences(init, i);
    }
  }

  /** Two registrations of one event, differing only in registration date,
      collapse to the first. */
  lemma DuplicateRegistrationsCollapse(e: HandlingEvent, t: DateTime)
    ensures Distinct([e, e.(registrationDate := t)]) == [e]
  {
    var s := [e, e.(registrationDate := t)];
    RegistrationDateIsIgnored(e, t);
    assert s[..1] == [e];
    assert [e][..0] == [];
    assert Distinct([e]) == [e];
    assert Contains([e], s[1]);
  }

  // ---------------------------------------------------------------------------
  // Ordering by completion time

  predicate SortedByCompletion(s: seq<HandlingEvent>) {
    forall i, j :: 0 <= i < j < |s| ==> s[i].completionDate <= s[j].completionDate
  }

  /** The events of `s` completed at `t`, in their order in `s`. */
  function CompletedAt(s: seq<HandlingEvent>, t: DateTime): seq<HandlingEvent> {
    if |s| == 0 then []
    else CompletedAt(s[..|s| - 1], t) + (if s[|s| - 1].completionDate == t then [s[|s| - 1]] else [])
  }

  lemma {:induction false} CompletedAtAppend(a: seq<HandlingEvent>, b: seq<HandlingEvent>, t: DateTime)
    ensures CompletedAt(a + b, t) == CompletedAt(a, t) + CompletedAt(b, t)
    decreases |b|
  {
    if |b| == 0 {
      assert a + b == a;
    } else {
      assert (a + b)[..|a + b| - 1] == a + b[..|b| - 1];
      assert (a + b)[|a + b| - 1] == b[|b| - 1];
      CompletedAtAppend(a, b[..|b| - 1], t);
    }
  }

  /** Places `x` after every element of the sorted `s` completed no later
      than it, and before the rest. */
  function Insert(s: seq<HandlingEvent>, x: HandlingEvent): (r: seq<HandlingEvent>)
    ensures multiset(r) == multiset(s) + multiset{x}
  {
    if |s| == 0 || s[|s| - 1].completionDate <= x.completionDate then s + [x]
    else
      assert s == s[..|s| - 1] + [s[|s| - 1]];
      Insert(s[..|s| - 1], x) + [s[|s| - 1]]
  }

  /** Every event of `Insert(s, x)` is `x` or an event of `s`. */
  lemma InsertMembers(s: seq<HandlingEvent>, x: HandlingEvent)
    ensures forall y :: y in Insert(s, x) ==> y in s || y == x
  {
    var r := Insert(s, x);
    forall y | y in r
      ensures y in s || y == x
    {
      assert y in multiset(r);
    }
  }

  /** Appending an event completed no earlier than every event of a sorted
      list keeps it sorted. */
  lemma AppendKeepsSorted(r: seq<HandlingEvent>, z: HandlingEvent)
    requires SortedByCompletion(r)
    requires forall y :: y in r ==> y.completionDate <= z.completionDate
    ensures SortedByCompletion(r + [z])
  {
    var w := r + [z];
    forall i, j | 0 <= i < j < |w|
      ensures w[i].completionDate <= w[j].completionDate
    {
      assert w[i] == r[i];
      if j < |r| {
        assert w[j] == r[j];
      } else {
        assert r[i] in r;
      }
    }
  }

  lemma {:induction false} InsertKeepsOrder(s: seq<HandlingEvent>, x: HandlingEvent)
    requires SortedByCompletion(s)
    ensures SortedByCompletion(Insert(s, x))
  {
    if |s| == 0 || s[|s| - 1].completionDate <= x.completionDate {
      forall y | y in s
        ensures y.completionDate <= x.completionDate
      {
        var k :| 0 <= k < |s| && s[k] == y;
        assert s[k].completionDate <= s[|s| - 1].completionDate;
      }
      AppendKeepsSorted(s, x);
    } else {
      var init, last := s[..|s| - 1], s[|s| - 1];
      InsertKeepsOrder(init, x);
      var r := Insert(init, x);
      InsertMembers(init, x);
      forall y | y in r
        ensures y.completionDate <= last.completionDate
      {
        if y != x {
          var k :| 0 <= k < |init| && init[k] == y;
          assert s[k] == y;
        }
      }
      AppendKeepsSorted(r, last);
      assert Insert(s, x) == r + [last];
    }
  }

  lemma CompletedAtSingleton(x: HandlingEvent, t: DateTime)
    ensures CompletedAt([x], t) == if x.completionDate == t then [x] else []
  {
    assert [x][..0] == [];
  }

  lemma {:induction false} InsertIsStable(s: seq<HandlingEvent>, x: HandlingEvent, t: DateTime)
    ensures CompletedAt(Insert(s, x), t) == CompletedAt(s, t) + CompletedAt([x], t)
  {
    if |s| == 0 || s[|s| - 1].completionDate <= x.completionDate {
      assert Insert(s, x) == s + [x];
      CompletedAtAppend(s, [x], t);
    } else {
      var init, last := s[..|s| - 1], s[|s| - 1];
      var r := Insert(init, x);
      var before, mid, after := CompletedAt(init, t), CompletedAt([x], t), CompletedAt([last], t);
      // `last` completed strictly after `x`, so at most one of them is kept
      CompletedAtSingleton(x, t);
      CompletedAtSingleton(last, t);
      assert mid + after == after + mid by {
        if x.completionDate == t {
          assert after == [];
        } else {
          assert mid == [];
        }
      }
      calc {
        CompletedAt(Insert(s, x), t);
      == { assert Insert(s, x) == r + [last]; }
        CompletedAt(r + [last], t);
      == { CompletedAtAppend(r, [last], t); }
        CompletedAt(r, t) + after;
      == { InsertIsStable(init, x, t); }
        before + mid + after;
      ==
        before + after + mid;
      == { CompletedAtAppend(init, [last], t); assert s == init + [last]; }
        CompletedAt(s, t) + mid;
      }
    }
  }

  /** `OrderBy(x => x.CompletionDate)`: a stable sort, built by inserting the
      events one after the other. */
  function SortByCompletion(s: seq<HandlingEvent>): (r: seq<HandlingEvent>)
    ensures multiset(r) == multiset(s)
  {
    if |s| == 0 then []
    else
      assert s == s[..|s| - 1] + [s[|s| - 1]];
      Insert(SortByCompletion(s[..|s| - 1]), s[|s| - 1])
  }

  /** The sort orders the events by completion time. */
  lemma {:induction false} SortIsOrdered(s: seq<HandlingEvent>)
    ensures SortedByCompletion(SortByCompletion(s))
  {
    if |s| > 0 {
      var init, last := s[..|s| - 1], s[|s| - 1];
      SortIsOrdered(init);
      InsertKeepsOrder(SortByCompletion(init), last);
      assert SortByCompletion(s) == Insert(SortByCompletion(init), last);
    }
  }

  /** The sort keeps the input order among events completed at the same time. */
  lemma {:induction false} SortIsStable(s: seq<HandlingEvent>, t: DateTime)
    ensures CompletedAt(SortByCompletion(s), t) == CompletedAt(s, t)
  {
    if |s| > 0 {
      var init, last := s[..|s| - 1], s[|s| - 1];
      SortIsStable(init, t);
      InsertIsStable(SortByCompletion(init), last, t);
      assert SortByCompletion(s) == Insert(SortByCompletion(init), last);
      CompletedAtSingleton(last, t);
    }
  }

  /** Appending an event equal to none of a list without equal events keeps
      it without equal events. */
  lemma AppendKeepsUnique(r: seq<HandlingEvent>, z: HandlingEvent)
    requires Unique(r)
    requires forall y :: y in r ==> !HandlingEvents.Equals(y, z)
    ensures Unique(r + [z])
  {
    var w := r + [z];
    forall i, j | 0 <= i < j < |w|
      ensures !HandlingEvents.Equals(w[i], w[j])
    {
      assert w[i] == r[i];
      if j < |r| {
        assert w[j] == r[j];
      } else {
        assert r[i] in r;
      }
    }
  }

  lemma {:induction false} InsertKeepsUnique(s: seq<HandlingEvent>, x: HandlingEvent)
    requires Unique(s)
    requires forall y :: y in s ==> !HandlingEvents.Equals(y, x) && !HandlingEvents.Equals(x, y)
    ensures Unique(Insert(s, x))
  {
    if |s| == 0 || s[|s| - 1].completionDate <= x.completionDate {
      AppendKeepsUnique(s, x);
    } else {
      var init, last := s[..|s| - 1], s[|s| - 1];
      assert forall y :: y in init ==> y in s;
      InsertKeepsUnique(init, x);
      var r := Insert(init, x);
      InsertMembers(init, x);
      forall y | y in r
        ensures !HandlingEvents.Equals(y, last)
      {
        if y != x {
          var k :| 0 <= k < |init| && init[k] == y;
          assert s[k] == y;
        }
      }
      AppendKeepsUnique(r, last);
      assert Insert(s, x) == r + [last];
    }
  }

  lemma {:induction false} SortKeepsUnique(s: seq<HandlingEvent>)
    requires Unique(s)
    ensures Unique(SortByCompletion(s))
  {
    if |s| > 0 {
      var init, last := s[..|s| - 1], s[|s| - 1];
      SortKeepsUnique(init);
      forall y | y in SortByCompletion(init)
        ensures !HandlingEvents.Equals(y, last) && !HandlingEvents.Equals(last, y)
      {
        assert y in multiset(SortByCompletion(init));
        var k :| 0 <= k < |init| && init[k] == y;
        assert s[k] == y;
        EqualsIsEquivalence(last, y, last);
      }
      InsertKeepsUnique(SortByCompletion(init), last);
    }
  }

  // ---------------------------------------------------------------------------
  // The derived view

  /** Sorting neither adds nor drops an event. */
  lemma SortKeepsElements(d: seq<HandlingEvent>)
    ensures |SortByCompletion(d)| == |d|
    ensures forall y :: y in SortByCompletion(d) <==> y in d
  {
    var r := SortByCompletion(d);
    assert forall y :: y in r <==> y in multiset(r);
    assert forall y :: y in d <==> y in multiset(d);
    assert |r| == |multiset(r)| == |multiset(d)| == |d|;
  }

  /** So sorting keeps what the list contains modulo event equality. */
  lemma SortKeepsContents(d: seq<HandlingEvent>, x: HandlingEvent)
    ensures Contains(SortByCompletion(d), x) <==> Contains(d, x)
  {
    var r := SortByCompletion(d);
    SortKeepsElements(d);
    if Contains(r, x) {
      var i :| 0 <= i < |r| && HandlingEvents.Equals(r[i], x);
      assert r[i] in d;
      var k :| 0 <= k < |d| && d[k] == r[i];
    }
    if Contains(d, x) {
      var i :| 0 <= i < |d| && HandlingEvents.Equals(d[i], x);
      assert d[i] in r;
      var k :| 0 <= k < |r| && r[k] == d[i];
    }
  }

  /** `DistinctEventsByCompletionTime`: duplicates removed, then ordered by
      completion time. */
  function DistinctEventsByCompletionTime(h: HandlingHistory): (r: seq<HandlingEvent>)
    ensures SortedByCompletion(r) && Unique(r)
    ensures forall x :: Contains(r, x) <==> Contains(h.events, x)
    ensures forall t :: CompletedAt(r, t) == CompletedAt(Distinct(h.events), t)
    ensures forall y :: y in r ==> y in h.events
    ensures |r| == 0 <==> |h.events| == 0
  {
    var d := Distinct(h.events);
    var r := SortByCompletion(d);
    DistinctIsUnique(h.events);
    SortKeepsUnique(d);
    SortIsOrdered(d);
    SortKeepsElements(d);
    assert forall t :: CompletedAt(r, t) == CompletedAt(d, t) by {
      forall t ensures CompletedAt(r, t) == CompletedAt(d, t) {
        SortIsStable(d, t);
      }
    }
    assert forall x :: Contains(r, x) <==> Contains(h.events, x) by {
      forall x ensures Contains(r, x) <==> Contains(h.events, x) {
        SortKeepsContents(d, x);
        DistinctCovers(h.events, x);
      }
    }
    r
  }

  /** The last event of the view is one of the history's events, completed no
      earlier than any of them. */
  lemma LastOfViewIsLatest(h: HandlingHistory)
    requires |h.events| > 0
    ensures var view := DistinctEventsByCompletionTime(h);
      && |view| > 0
      && view[|view| - 1] in h.events
      && forall i :: 0 <= i < |h.events| ==> h.events[i].completionDate <= view[|view| - 1].completionDate
  {
    var view := DistinctEventsByCompletionTime(h);
    var last := view[|view| - 1];
    forall i | 0 <= i < |h.events|
      ensures h.events[i].completionDate <= last.completionDate
    {
      EqualsIsEquivalence(h.events[i], h.events[i], h.events[i]);
      assert Contains(h.events, h.events[i]);
      assert Contains(view, h.events[i]);
      var k :| 0 <= k < |view| && HandlingEvents.Equals(view[k], h.events[i]);
      EqualEventsShareCompletion(view[k], h.events[i]);
    }
  }

  /** `MostRecentlyCompletedEvent`: the last event of the view, or null when
      there are no events. */
  function MostRecentlyCompletedEvent(h: HandlingHistory): (r: Option<HandlingEvent>)
    ensures r.None? <==> |h.events| == 0
    ensures r.Some? ==> r.value in h.events
    ensures r.Some? ==> forall i :: 0 <= i < |h.events| ==> h.events[i].completionDate <= r.value.completionDate
    ensures r.Some? ==> var view := DistinctEventsByCompletionTime(h); r.value == view[|view| - 1]
  {
    if |h.events| == 0 then None
    else
      var view := DistinctEventsByCompletionTime(h);
      LastOfViewIsLatest(h);
      Some(view[|view| - 1])
  }

  /** Ties on the latest completion date go to the event whose first
      registration came last: the most recent event is the last of the
      distinct events completed at its date, in registration order. */
  lemma MostRecentBreaksTiesByRegistration(h: HandlingHistory)
    requires |h.events| > 0
    ensures var r := MostRecentlyCompletedEvent(h).value;
      var tied := CompletedAt(Distinct(h.events), r.completionDate);
      |tied| > 0 && r == tied[|tied| - 1]
  {
    var view := DistinctEventsByCompletionTime(h);
    var r := view[|view| - 1];
    assert CompletedAt(view, r.completionDate) == CompletedAt(view[..|view| - 1], r.completionDate) + [r];
  }

  /** The empty history has no most recent event; a history of one event
      reports that event. */
  lemma MostRecentOfSmallHistories(e: HandlingEvent)
    ensures MostRecentlyCompletedEvent(EmptyHistory) == None
    ensures MostRecentlyCompletedEvent(HandlingHistory([e])) == Some(e)
  {
  }

  /** `Equals` for a non-null argument: the events compared pointwise over
      lists of the same length. */
  predicate Equals(a: HandlingHistory, b: HandlingHistory) {
    ValueObject.AtomsEqualStrict(a.events, b.events, HandlingEvents.Equals)
  }

  /** The enumerator loop as written agrees with `Equals` on histories with the
      same number of events, but it also lets a history with one extra
      trailing event equal the shorter one (and not the other way round),
      which `Equals` rejects. */
  lemma AsWrittenLoopOnHistories(a: HandlingHistory, b: HandlingHistory, extra: HandlingEvent)
    ensures |a.events| == |b.events| ==>
      (ValueObject.AtomsEqual(a.events, b.events, HandlingEvents.Equals) <==> Equals(a, b))
    ensures ValueObject.AtomsEqual(b.events + [extra], b.events, HandlingEvents.Equals)
    ensures !ValueObject.AtomsEqual(b.events, b.events + [extra], HandlingEvents.Equals)
    ensures !Equals(HandlingHistory(b.events + [extra]), b)
  {
    if |a.events| == |b.events| {
      ValueObject.AsWrittenAgreesOnEqualLength(a.events, b.events, HandlingEvents.Equals);
    }
    forall i | 0 <= i < |b.events|
      ensures HandlingEvents.Equals(b.events[i], b.events[i])
    {
      EqualsIsEquivalence(b.events[i], b.events[i], b.events[i]);
    }
    ValueObject.AsWrittenAcceptsOneTrailingValue(b.events, extra, HandlingEvents.Equals);
  }
}

=== FILE: itinerary.dfy ===
/** Itineraries: the planned legs that carry a cargo from its origin to its
    destination, and the test whether a handling event fits that plan. */
module Itineraries {
  import opened Wrappers
  import opened DateTimes
  import ValueObject
  import opened Locations
  import opened Voyages
  import opened Legs
  import opened HandlingEventTypes
  import opened HandlingEvents

  datatype Itinerary = Itinerary(legs: seq<Leg>)

  /** The public constructor: rejects a null list, then an empty one. */
  function New(legs: Option<seq<Leg>>): (r: Result<Itinerary>)
    ensures legs.None? ==> r == Err(ArgumentNull("legs"))
    ensures legs.Some? && |legs.value| == 0 ==> r == Err(Argument("legs"))
    ensures r.Ok? <==> legs.Some? && |legs.value| > 0
    ensures r.Ok? ==> r.value.legs == legs.value
  {
    if legs.None? then Err(ArgumentNull("legs"))
    else if |legs.value| == 0 then Err(Argument("legs"))
    else Ok(Itinerary(legs.value))
  }

  /** `Itinerary.EmptyItinerary`, built by the protected constructor: the only
      itinerary without legs. */
  const EmptyItinerary: Itinerary := Itinerary([])

  predicate IsEmpty(it: Itinerary) {
    |it.legs| == 0
  }

  /** Where the first leg loads, or `Location.Unknown` without legs. */
  function InitialDepartureLocation(it: Itinerary): Location {
    if IsEmpty(it) then Unknown() else it.legs[0].loadLocation
  }

  /** Where the last leg unloads, or `Location.Unknown` without legs. */
  function FinalArrivalLocation(it: Itinerary): Location {
    if IsEmpty(it) then Unknown() else it.legs[|it.legs| - 1].unloadLocation
  }

  /** When the last leg unloads, or null without legs. */
  function FinalArrivalDate(it: Itinerary): (r: Option<DateTime>)
    ensures r.None? <==> IsEmpty(it)
  {
    if IsEmpty(it) then None else Some(it.legs[|it.legs| - 1].unloadDate)
  }

  /** Every constructed itinerary starts where its first leg loads and ends
      where and when its last leg unloads; only the empty itinerary reports the
      unknown location and no arrival date. */
  lemma EndpointsOfConstructed(legs: seq<Leg>)
    requires New(Some(legs)).Ok?
    ensures var it := New(Some(legs)).value;
      && InitialDepartureLocation(it) == legs[0].loadLocation
      && FinalArrivalLocation(it) == legs[|legs| - 1].unloadLocation
      && FinalArrivalDate(it) == Some(legs[|legs| - 1].unloadDate)
    ensures InitialDepartureLocation(EmptyItinerary) == Unknown()
    ensures FinalArrivalLocation(EmptyItinerary) == Unknown()
    ensures FinalArrivalDate(EmptyItinerary) == None
  {
  }

  /** A leg's load or unload end. */
  datatype Stop = LoadStop | UnloadStop

  function StopLocation(leg: Leg, stop: Stop): Location {
    match stop
    case LoadStop => leg.loadLocation
    case UnloadStop => leg.unloadLocation
  }

  /** `FirstOrDefault` over the legs by location: the index of the first leg
      whose given end is at `loc`, or nothing. */
  function FirstLegAt(legs: seq<Leg>, stop: Stop, loc: Location): (r: Option<nat>)
    ensures r.Some? ==> r.value < |legs| && Same(StopLocation(legs[r.value], stop), loc)
    ensures r.Some? ==> forall j :: 0 <= j < r.value ==> !Same(StopLocation(legs[j], stop), loc)
    ensures r.None? <==> forall j :: 0 <= j < |legs| ==> !Same(StopLocation(legs[j], stop), loc)
  {
    if |legs| == 0 then None
    else if Same(StopLocation(legs[0], stop), loc) then Some(0)
    else match FirstLegAt(legs[1..], stop, loc)
      case None => None
      case Some(i) => Some(i + 1)
  }

  /** Some leg has the given end at `loc` on this very voyage instance. */
  predicate SomeLegCalls(legs: seq<Leg>, stop: Stop, loc: Location, voyage: Voyage) {
    exists i :: 0 <= i < |legs| && Same(StopLocation(legs[i], stop), loc) && SameInstance(legs[i].voyage, voyage)
  }

  /** `IsExpected` on the three things it reads from the event: its type,
      location and voyage. Without legs everything is expected; a receive must
      be at the first load location and a claim at the last unload location; a
      load or unload must match some leg's end and that leg's voyage instance;
      customs is always expected. */
  predicate Expects(it: Itinerary, eventType: HandlingEventType, loc: Location, voyage: Voyage) {
    if IsEmpty(it) then true
    else if eventType == Receive then Same(it.legs[0].loadLocation, loc)
    else if eventType == Claim then Same(it.legs[|it.legs| - 1].unloadLocation, loc)
    else if eventType == Load then SomeLegCalls(it.legs, LoadStop, loc, voyage)
    else if eventType == Unload then SomeLegCalls(it.legs, UnloadStop, loc, voyage)
    else true
  }

  predicate IsExpected(it: Itinerary, e: HandlingEvent) {
    Expects(it, e.eventType, e.location, VoyageOf(e))
  }

  /** Whether an event is expected depends on its type, the code of its
      location and its voyage, and on nothing else: not on the dates, the cargo
      or the location's name. */
  lemma ExpectationIgnoresTheRest(it: Itinerary, e: HandlingEvent, f: HandlingEvent)
    requires e.eventType == f.eventType && e.location.unLocode == f.location.unLocode
    requires e.voyageField == f.voyageField
    ensures IsExpected(it, e) == IsExpected(it, f)
  {
    forall l: Location
      ensures Same(l, e.location) == Same(l, f.location)
    {
      SameIsCodeEquality(l, e.location);
      SameIsCodeEquality(l, f.location);
    }
  }

  /** Every event of the empty itinerary, and every customs event, is expected;
      a receive or claim is expected exactly at the itinerary's endpoints. */
  lemma ExpectedAtEndpoints(it: Itinerary, e: HandlingEvent)
    ensures IsEmpty(it) || e.eventType == Customs ==> IsExpected(it, e)
    ensures e.eventType == Receive ==> (IsExpected(it, e) <==> IsEmpty(it) || Same(InitialDepartureLocation(it), e.location))
    ensures e.eventType == Claim ==> (IsExpected(it, e) <==> IsEmpty(it) || Same(FinalArrivalLocation(it), e.location))
  {
  }

  /** A load is expected exactly where `FirstLegAt` finds a loading leg on the
      event's voyage instance: the first leg loading at the place may be on
      another voyage, so the search over all legs is needed. */
  lemma LoadExpectedOnlyAtALoadLocation(it: Itinerary, e: HandlingEvent)
    requires !IsEmpty(it) && e.eventType == Load
    ensures IsExpected(it, e) ==> FirstLegAt(it.legs, LoadStop, e.location).Some?
  {
    if IsExpected(it, e) {
      var i :| 0 <= i < |it.legs| && Same(StopLocation(it.legs[i], LoadStop), e.location)
               && SameInstance(it.legs[i].voyage, VoyageOf(e));
      assert !(forall j :: 0 <= j < |it.legs| ==> !Same(StopLocation(it.legs[j], LoadStop), e.location));
    }
  }

  /** Voyages in an itinerary are matched by instance, not by number: a load
      on another voyage object with the same number is not expected. */
  lemma VoyageMatchedByInstance(leg: Leg, other: Voyage, e: HandlingEvent)
    requires other.number == leg.voyage.number && other.identity != leg.voyage.identity
    requires e.eventType == Load && Same(e.location, leg.loadLocation) && e.voyageField == Some(other)
    ensures Voyages.Equals(leg.voyage, ValueObject.Instance(other))
    ensures !IsExpected(Itinerary([leg]), e)
  {
    VoyageNumbers.EqualsIsStringEquality(leg.voyage.number, other.number);
  }

  /** `Equals` for a non-null argument: the legs compared pointwise over lists
      of the same length. */
  predicate Equals(a: Itinerary, b: Itinerary) {
    ValueObject.AtomsEqualStrict(a.legs, b.legs, Legs.Equals)
  }

  /** Under the same-length comparison every itinerary equals itself, and an
      itinerary with an extra leg equals one without it in neither direction. */
  lemma EqualsFacts(a: Itinerary, extra: Leg)
    ensures Equals(a, a)
    ensures !Equals(Itinerary(a.legs + [extra]), a) && !Equals(a, Itinerary(a.legs + [extra]))
  {
    forall i | 0 <= i < |a.legs|
      ensures Legs.Equals(a.legs[i], a.legs[i])
    {
      EqualsIsReflexive(a.legs[i]);
    }
  }

  /** The enumerator loop as written agrees with `Equals` on itineraries with
      the same number of legs, but it also lets an itinerary with one extra
      trailing leg equal the shorter one (and not the other way round), which
      `Equals` rejects. */
  lemma AsWrittenLoopOnItineraries(a: Itinerary, b: Itinerary, extra: Leg)
    ensures |a.legs| == |b.legs| ==>
      (ValueObject.AtomsEqual(a.legs, b.legs, Legs.Equals) <==> Equals(a, b))
    ensures ValueObject.AtomsEqual(b.legs + [extra], b.legs, Legs.Equals)
    ensures !ValueObject.AtomsEqual(b.legs, b.legs + [extra], Legs.Equals)
    ensures !Equals(Itinerary(b.legs + [extra]), b)
  {
    if |a.legs| == |b.legs| {
      ValueObject.AsWrittenAgreesOnEqualLength(a.legs, b.legs, Legs.Equals);
    }
    forall i | 0 <= i < |b.legs|
      ensures Legs.Equals(b.legs[i], b.legs[i])
    {
      EqualsIsReflexive(b.legs[i]);
    }
    ValueObject.AsWrittenAcceptsOneTrailingValue(b.legs, extra, Legs.Equals);
  }
}

=== FILE: leg.dfy ===
/** Legs: one load/unload step of an itinerary, on one voyage. */
module Legs {
  import opened Wrappers
  import opened DateTimes
  import ValueObject
  import opened Locations
  import opened Voyages

  datatype Leg = Leg(
    voyage: Voyage,
    loadLocation: Location,
    loadDate: DateTime,
    unloadLocation: Location,
    unloadDate: DateTime)

  /** The constructor: rejects, in this order, a null voyage, load location or
      unload location, then an unset load date or unload date. Nothing orders the
      dates or ties the locations to the voyage's schedule. */
  function New(voyage: Option<Voyage>, loadLocation: Option<Location>, loadDate: DateTime,
               unloadLocation: Option<Location>, unloadDate: DateTime): (r: Result<Leg>)
    ensures voyage.None? ==> r == Err(ArgumentNull("voyage"))
    ensures voyage.Some? && loadLocation.None? ==> r == Err(ArgumentNull("loadLocation"))
    ensures voyage.Some? && loadLocation.Some? && unloadLocation.None? ==> r == Err(ArgumentNull("unloadLocation"))
    ensures voyage.Some? && loadLocation.Some? && unloadLocation.Some? && !IsSet(loadDate)
            ==> r == Err(Argument("loadDate"))
    ensures voyage.Some? && loadLocation.Some? && unloadLocation.Some? && IsSet(loadDate) && !IsSet(unloadDate)
            ==> r == Err(Argument("unloadDate"))
    ensures r.Ok? <==> voyage.Some? && loadLocation.Some? && unloadLocation.Some? && IsSet(loadDate) && IsSet(unloadDate)
    ensures r.Ok? ==> r.value == Leg(voyage.value, loadLocation.value, loadDate, unloadLocation.value, unloadDate)
  {
    if voyage.None? then Err(ArgumentNull("voyage"))
    else if loadLocation.None? then Err(ArgumentNull("loadLocation"))
    else if unloadLocation.None? then Err(ArgumentNull("unloadLocation"))
    else if !IsSet(loadDate) then Err(Argument("loadDate"))
    else if !IsSet(unloadDate) then Err(Argument("unloadDate"))
    else Ok(Leg(voyage.value, loadLocation.value, loadDate, unloadLocation.value, unloadDate))
  }

  /** `Equals` for a non-null argument: voyage (by number), load location,
      unload location (both by code), load date and unload date. */
  predicate Equals(a: Leg, b: Leg) {
    && Voyages.Equals(a.voyage, ValueObject.Instance(b.voyage))
    && Same(a.loadLocation, b.loadLocation)
    && Same(a.unloadLocation, b.unloadLocation)
    && a.loadDate == b.loadDate
    && a.unloadDate == b.unloadDate
  }

  /** A leg may end before it starts: the constructor accepts any two set dates. */
  lemma DatesAreUnordered(v: Voyage, from: Location, to: Location)
    ensures New(Some(v), Some(from), 2, Some(to), 1).Ok?
  {
  }

  lemma EqualsIsReflexive(a: Leg)
    ensures Equals(a, a)
  {
    VoyageNumbers.EqualsIsStringEquality(a.voyage.number, a.voyage.number);
    SameIsCodeEquality(a.loadLocation, a.loadLocation);
    SameIsCodeEquality(a.unloadLocation, a.unloadLocation);
  }
}

=== FILE: location.dfy ===
/** Locations: stops on a journey, identified by their UN/LOCODE. */
module Locations {
  import opened Wrappers
  import opened UnLocodes
  import ValueObject

  datatype Location = Location(unLocode: UnLocode, name: string)

  /** The constructor: rejects a null code, then a null or empty name. */
  function New(locode: Option<UnLocode>, name: Option<string>): (r: Result<Location>)
    ensures locode.None? ==> r == Err(ArgumentNull("locode"))
    ensures locode.Some? && (name.None? || name.value == "") ==> r == Err(ArgumentNull("name"))
    ensures r.Ok? <==> locode.Some? && name.Some? && name.value != ""
    ensures r.Ok? ==> r.value.unLocode == locode.value && r.value.name == name.value
  {
    if locode.None? then Err(ArgumentNull("locode"))
    else if name.None? || name.value == "" then Err(ArgumentNull("name"))
    else Ok(Location(locode.value, name.value))
  }

  /** The code of `Unknown`. */
  const UnknownCode: string := "XXXXX"

  /** `Location.Unknown`: a fresh location coded XXXXX. */
  function Unknown(): (l: Location)
    ensures New(Some(l.unLocode), Some(l.name)) == Ok(l)
    ensures Parse(Some(UnknownCode)) == Ok(l.unLocode)
  {
    assert MatchesPattern(UnknownCode);
    assert ToUpper(UnknownCode) == UnknownCode;
    Location(UnLocode(UnknownCode), "Unknown location")
  }

  /** `Equals(object)`: false for null or another runtime type, otherwise the
      codes are compared with the UnLocode `==`; the name plays no part. */
  predicate Equals(a: Location, obj: ValueObject.Obj<Location>) {
    obj.Instance? && UnLocodes.Equals(a.unLocode, obj.value.unLocode)
  }

  /** `a == b` for two non-null locations, the comparison the rest of the
      domain performs on locations. */
  predicate Same(a: Location, b: Location) {
    Equals(a, ValueObject.Instance(b))
  }

  /** The `==` operator on possibly-null locations. */
  predicate EqualOp(left: Option<Location>, right: Option<Location>) {
    ValueObject.EqualOperator(left, right, Same)
  }

  lemma SameIsCodeEquality(a: Location, b: Location)
    ensures Same(a, b) <==> a.unLocode.code == b.unLocode.code
    ensures Same(a, b) == Same(b, a)
  {
    UnLocodes.EqualsIsCodeEquality(a.unLocode, b.unLocode);
    UnLocodes.EqualsIsCodeEquality(b.unLocode, a.unLocode);
  }

  /** The comparisons the tests exercise: a location equals itself and any
      location with the same code whatever its name, never null, and `Unknown`
      equals every location coded XXXXX. */
  lemma EqualityFacts(a: Location, b: Location)
    ensures Same(a, a)
    ensures a.unLocode == b.unLocode ==> Same(a, b)
    ensures !Equals(a, ValueObject.Null) && !EqualOp(Some(a), None) && !EqualOp(None, Some(a))
    ensures EqualOp(None, None)
    ensures a.unLocode.code == UnknownCode ==> Same(Unknown(), a)
  {
    SameIsCodeEquality(a, a);
    SameIsCodeEquality(a, b);
    SameIsCodeEquality(Unknown(), a);
  }

  /** `ToString`: the name followed by the code in brackets. */
  function ToString(l: Location): (s: string)
    ensures |s| == |l.name| + |CodeString(l.unLocode)| + 3
    ensures s[..|l.name|] == l.name
    ensures s[|l.name|..] == " [" + CodeString(l.unLocode) + "]"
  {
    l.name + " [" + l.unLocode.code + "]"
  }
}

=== FILE: route_specification.dfy ===
/** Route specifications: where a cargo starts, where it must arrive, and the
    deadline by which it must arrive. */
module RouteSpecifications {
  import opened Wrappers
  import opened DateTimes
  import opened Locations
  import opened Legs
  import opened Itineraries

  datatype RouteSpecification = RouteSpecification(origin: Location, destination: Location, arrivalDeadline: DateTime)

  /** The constructor: rejects, in this order, a null origin, a null
      destination, an origin equal to the destination (an argument error
      without a parameter name) and an unset deadline. */
  function New(origin: Option<Location>, destination: Option<Location>, arrivalDeadline: DateTime): (r: Result<RouteSpecification>)
    ensures origin.None? ==> r == Err(ArgumentNull("origin"))
    ensures origin.Some? && destination.None? ==> r == Err(ArgumentNull("destination"))
    ensures origin.Some? && destination.Some? && origin.value.unLocode.code == destination.value.unLocode.code
            ==> r == Err(Argument(""))
    ensures && origin.Some? && destination.Some?
            && origin.value.unLocode.code != destination.value.unLocode.code
            && !IsSet(arrivalDeadline)
            ==> r == Err(Argument("arrivalDeadline"))
    ensures r.Ok? <==> && origin.Some? && destination.Some?
                       && origin.value.unLocode.code != destination.value.unLocode.code
                       && IsSet(arrivalDeadline)
    ensures r.Ok? ==> r.value == RouteSpecification(origin.value, destination.value, arrivalDeadline)
  {
    if origin.None? then Err(ArgumentNull("origin"))
    else if destination.None? then Err(ArgumentNull("destination"))
    else if (SameIsCodeEquality(origin.value, destination.value); EqualOp(origin, destination)) then Err(Argument(""))
    else if !IsSet(arrivalDeadline) then Err(Argument("arrivalDeadline"))
    else Ok(RouteSpecification(origin.value, destination.value, arrivalDeadline))
  }

  /** `IsSatisfiedBy`: a non-null itinerary that departs from the origin,
      arrives at the destination, and arrives strictly before the deadline (the
      lifted comparison with a null arrival date is false). */
  predicate IsSatisfiedBy(spec: RouteSpecification, itinerary: Option<Itinerary>)
    ensures IsSatisfiedBy(spec, itinerary) ==> itinerary.Some? && !IsEmpty(itinerary.value)
  {
    && itinerary.Some?
    && Same(spec.origin, InitialDepartureLocation(itinerary.value))
    && Same(spec.destination, FinalArrivalLocation(itinerary.value))
    && LiftedGreater(spec.arrivalDeadline, FinalArrivalDate(itinerary.value))
  }

  /** The same test stated on the legs: there is at least one leg, the first
      loads at the origin, the last unloads at the destination, and it unloads
      before the deadline. */
  lemma SatisfiedByLegs(spec: RouteSpecification, it: Itinerary)
    ensures IsSatisfiedBy(spec, Some(it)) <==>
      && |it.legs| > 0
      && it.legs[0].loadLocation.unLocode.code == spec.origin.unLocode.code
      && it.legs[|it.legs| - 1].unloadLocation.unLocode.code == spec.destination.unLocode.code
      && it.legs[|it.legs| - 1].unloadDate < spec.arrivalDeadline
  {
    if |it.legs| > 0 {
      SameIsCodeEquality(spec.origin, it.legs[0].loadLocation);
      SameIsCodeEquality(spec.destination, it.legs[|it.legs| - 1].unloadLocation);
    }
  }

  /** Neither a null itinerary nor the empty itinerary satisfies any
      specification, and arriving exactly at the deadline is too late. */
  lemma NotSatisfied(spec: RouteSpecification, leg: Leg)
    requires leg.unloadDate == spec.arrivalDeadline
    ensures !IsSatisfiedBy(spec, None)
    ensures !IsSatisfiedBy(spec, Some(EmptyItinerary))
    ensures !IsSatisfiedBy(spec, Some(Itinerary([leg])))
  {
  }

  /** `Equals` for a non-null argument: origin, destination (both by code) and
      deadline. */
  predicate Equals(a: RouteSpecification, b: RouteSpecification) {
    && Same(a.origin, b.origin)
    && Same(a.destination, b.destination)
    && a.arrivalDeadline == b.arrivalDeadline
  }

  /** Equal specifications are satisfied by the same itineraries. */
  lemma EqualSpecificationsAgree(a: RouteSpecification, b: RouteSpecification, itinerary: Option<Itinerary>)
    requires Equals(a, b)
    ensures IsSatisfiedBy(a, itinerary) == IsSatisfiedBy(b, itinerary)
  {
    if itinerary.Some? {
      var it := itinerary.value;
      SameIsCodeEquality(a.origin, b.origin);
      SameIsCodeEquality(a.destination, b.destination);
      SameIsCodeEquality(a.origin, InitialDepartureLocation(it));
      SameIsCodeEquality(b.origin, InitialDepartureLocation(it));
      SameIsCodeEquality(a.destination, FinalArrivalLocation(it));
      SameIsCodeEquality(b.destination, FinalArrivalLocation(it));
    }
  }
}

=== FILE: schedule.dfy ===
/** Voyage schedules: the ordered carrier movements of a voyage. */
module Schedules {
  import opened Wrappers
  import ValueObject
  import opened CarrierMovements

  datatype Schedule = Schedule(movements: seq<CarrierMovement>)

  predicate HasNull(ms: seq<Option<CarrierMovement>>) {
    exists i :: 0 <= i < |ms| && ms[i].None?
  }

  function Unwrap(ms: seq<Option<CarrierMovement>>): (r: seq<CarrierMovement>)
    requires !HasNull(ms)
    ensures |r| == |ms| && forall i :: 0 <= i < |ms| ==> ms[i] == Some(r[i])
  {
    seq(|ms|, i requires 0 <= i < |ms| && !HasNull(ms) => ms[i].value)
  }

  /** The public constructor: rejects, in this order, a null list, a list
      holding a null movement, and an empty list. */
  function New(movements: Option<seq<Option<CarrierMovement>>>): (r: Result<Schedule>)
    ensures movements.None? ==> r == Err(ArgumentNull("carrierMovements"))
    ensures movements.Some? && HasNull(movements.value) ==> r == Err(Argument(""))
    ensures movements.Some? && |movements.value| == 0 ==> r == Err(Argument(""))
    ensures r.Ok? <==> movements.Some? && |movements.value| > 0 && !HasNull(movements.value)
    ensures r.Ok? ==> |r.value.movements| == |movements.value| > 0
    ensures r.Ok? ==> forall i :: 0 <= i < |movements.value| ==> movements.value[i] == Some(r.value.movements[i])
  {
    match movements
    case None => Err(ArgumentNull("carrierMovements"))
    case Some(ms) =>
      if |ms| > 0 && HasNull(ms) then Err(Argument(""))
      else if |ms| == 0 then Err(Argument(""))
      else Ok(Schedule(Unwrap(ms)))
  }

  /** `Schedule.Empty`: the null object built by the protected constructor,
      which leaves the list of movements null. It is modelled as the only
      schedule without movements; `EqualsAsRun` keeps the null list apart. */
  const Empty: Schedule := Schedule([])

  /** `Empty` is out of reach of the public constructor. */
  lemma EmptyIsNotConstructible(movements: Option<seq<Option<CarrierMovement>>>)
    ensures New(movements) != Ok(Empty)
  {
  }

  /** `Equals` for a non-null argument: the movements are the atomic values,
      compared pointwise over lists of the same length (the comparison the
      enumerator loop of the value-object base evidently intends). It is total:
      `Empty` compares as a schedule without movements. */
  predicate Equals(a: Schedule, b: Schedule) {
    ValueObject.AtomsEqualStrict(a.movements, b.movements, CarrierMovements.Equals)
  }

  /** Schedule equality is an equivalence relation. */
  lemma EqualsIsEquivalence(a: Schedule, b: Schedule, c: Schedule)
    ensures Equals(a, a)
    ensures Equals(a, b) ==> Equals(b, a)
    ensures Equals(a, b) && Equals(b, c) ==> Equals(a, c)
  {
    forall i | 0 <= i < |a.movements|
      ensures CarrierMovements.Equals(a.movements[i], a.movements[i])
    {
      CarrierMovements.EqualsIsEquivalence(a.movements[i], a.movements[i], a.movements[i]);
    }
    if Equals(a, b) {
      forall i | 0 <= i < |b.movements|
        ensures CarrierMovements.Equals(b.movements[i], a.movements[i])
      {
        CarrierMovements.EqualsIsEquivalence(a.movements[i], b.movements[i], a.movements[i]);
      }
    }
    if Equals(a, b) && Equals(b, c) {
      forall i | 0 <= i < |a.movements|
        ensures CarrierMovements.Equals(a.movements[i], c.movements[i])
      {
        CarrierMovements.EqualsIsEquivalence(a.movements[i], b.movements[i], c.movements[i]);
      }
    }
  }

  /** The enumerator loop as written agrees with `Equals` on schedules with the
      same number of movements, but it also lets a schedule with one extra
      trailing movement equal the shorter one (and not the other way round),
      which `Equals` rejects. */
  lemma AsWrittenLoopOnSchedules(a: Schedule, b: Schedule, extra: CarrierMovement)
    ensures |a.movements| == |b.movements| ==>
      (ValueObject.AtomsEqual(a.movements, b.movements, CarrierMovements.Equals) <==> Equals(a, b))
    ensures ValueObject.AtomsEqual(b.movements + [extra], b.movements, CarrierMovements.Equals)
    ensures !ValueObject.AtomsEqual(b.movements, b.movements + [extra], CarrierMovements.Equals)
    ensures !Equals(Schedule(b.movements + [extra]), b)
  {
    if |a.movements| == |b.movements| {
      ValueObject.AsWrittenAgreesOnEqualLength(a.movements, b.movements, CarrierMovements.Equals);
    }
    EqualsIsEquivalence(b, b, b);
    ValueObject.AsWrittenAcceptsOneTrailingValue(b.movements, extra, CarrierMovements.Equals);
  }

  /** `Equals(object)` on schedules as the source runs it. A null argument or
      one of another runtime type is unequal before anything is enumerated.
      Otherwise the receiver's movements are enumerated first, then the
      argument's; the null list of `Empty` throws on its first step, on
      either side. Between constructed schedules the loop as written decides. */
  function EqualsAsRun(a: Schedule, obj: ValueObject.Obj<Schedule>): (r: Result<bool>)
    ensures obj.Null? || obj.OtherType? ==> r == Ok(false)
    ensures obj.Instance? && (a == Empty || obj.value == Empty) ==> r == Err(NullReference)
    ensures obj.Instance? && a != Empty && obj.value != Empty ==>
      r == Ok(ValueObject.PrefixMatchWithSlack(a.movements, obj.value.movements, CarrierMovements.Equals))
  {
    match obj
    case Null => Ok(false)
    case OtherType => Ok(false)
    case Instance(b) =>
      if a == Empty || b == Empty then Err(NullReference)
      else
        ValueObject.AtomsEqualIsPrefixMatchWithSlack(a.movements, b.movements, CarrierMovements.Equals);
        Ok(ValueObject.AtomsEqual(a.movements, b.movements, CarrierMovements.Equals))
  }

  /** The `==` operator on schedules as the source runs it: the null rule of the
      value-object helper, then the left operand's `Equals`. */
  function EqualOperatorAsRun(left: Option<Schedule>, right: Option<Schedule>): (r: Result<bool>)
    ensures left.None? && right.None? ==> r == Ok(true)
    ensures left.None? != right.None? ==> r == Ok(false)
    ensures left == Some(Empty) && right == Some(Empty) ==> r == Err(NullReference)
    ensures left.Some? && right.Some? && left.value != Empty && right.value != Empty ==>
      r == Ok(ValueObject.EqualOperator(left, right,
                (x: Schedule, y: Schedule) => ValueObject.PrefixMatchWithSlack(x.movements, y.movements, CarrierMovements.Equals)))
  {
    if left.None? != right.None? then Ok(false)
    else if left.None? then Ok(true)
    else EqualsAsRun(left.value, ValueObject.Instance(right.value))
  }

  /** Every comparison of schedules that reaches the enumeration throws exactly
      when `Empty` takes part, and between constructed schedules of the same
      length it answers as the corrected `Equals`. */
  lemma EqualsAsRunAgrees(a: Schedule, b: Schedule)
    ensures EqualsAsRun(a, ValueObject.Instance(b)).Err? <==> a == Empty || b == Empty
    ensures a != Empty && b != Empty && |a.movements| == |b.movements| ==>
      EqualsAsRun(a, ValueObject.Instance(b)) == Ok(Equals(a, b))
  {
  }
}

=== FILE: tracking_id.dfy ===
/** Tracking ids: the identity of a cargo, a non-empty string. */
module TrackingIds {
  import opened Wrappers

  datatype TrackingId = TrackingId(id: string)

  /** The constructor: a null or empty string is rejected. */
  function New(id: Option<string>): (r: Result<TrackingId>)
    ensures r.Ok? <==> id.Some? && id.value != ""
    ensures r.Err? ==> r.error == ArgumentNull("id")
    ensures r.Ok? ==> r.value.id == id.value
  {
    if id.None? || id.value == "" then Err(ArgumentNull("id"))
    else Ok(TrackingId(id.value))
  }

  /** Tracking ids are compared by their string. */
  predicate Equals(a: TrackingId, b: TrackingId) {
    a.id == b.id
  }
}

=== FILE: un_locode.dfy ===
/** United Nations location codes: two letters of country code followed by
    three letters or digits 2-9, stored upper-case. */
module UnLocodes {
  import opened Wrappers
  import ValueObject

  datatype UnLocode = UnLocode(code: string)

  predicate IsAsciiLetter(c: char) {
    'a' <= c <= 'z' || 'A' <= c <= 'Z'
  }

  predicate IsLowerAsciiLetter(c: char) {
    'a' <= c <= 'z'
  }

  /** A character of the class `[a-zA-Z2-9]`. */
  predicate IsLocationChar(c: char) {
    IsAsciiLetter(c) || '2' <= c <= '9'
  }

  /** The pattern `^[a-zA-Z]{2}[a-zA-Z2-9]{3}$`. */
  predicate MatchesPattern(s: string) {
    && |s| == 5
    && IsAsciiLetter(s[0]) && IsAsciiLetter(s[1])
    && IsLocationChar(s[2]) && IsLocationChar(s[3]) && IsLocationChar(s[4])
  }

  /** A code as it is stored: it matches the pattern and holds no lower-case letter. */
  predicate IsCanonical(s: string) {
    MatchesPattern(s) && forall i :: 0 <= i < |s| ==> !IsLowerAsciiLetter(s[i])
  }

  function UpperChar(c: char): (u: char)
    ensures !IsLowerAsciiLetter(u)
    ensures IsLowerAsciiLetter(c) ==> u as int == c as int - 32
    ensures !IsLowerAsciiLetter(c) ==> u == c
  {
    if IsLowerAsciiLetter(c) then (c as int - 32) as char else c
  }

  /** `string.ToUpper` on the characters the pattern admits. */
  function ToUpper(s: string): (r: string)
    ensures |r| == |s|
    ensures forall i :: 0 <= i < |s| ==> r[i] == UpperChar(s[i])
  {
    seq(|s|, i requires 0 <= i < |s| => UpperChar(s[i]))
  }

  /** Two characters that are the same up to ASCII letter case. */
  predicate SameIgnoringCase(c: char, d: char) {
    || c == d
    || (IsLowerAsciiLetter(c) && d as int == c as int - 32)
    || (IsLowerAsciiLetter(d) && c as int == d as int - 32)
  }

  predicate EqualIgnoringCase(s: string, t: string) {
    |s| == |t| && forall i :: 0 <= i < |s| ==> SameIgnoringCase(s[i], t[i])
  }

  /** The constructor: rejects a null code, then a code outside the pattern,
      and stores the upper-cased code. */
  function Parse(code: Option<string>): (r: Result<UnLocode>)
    ensures code.None? ==> r == Err(ArgumentNull("code"))
    ensures code.Some? && !MatchesPattern(code.value) ==> r == Err(Argument("code"))
    ensures code.Some? && MatchesPattern(code.value) ==> r.Ok?
    ensures r.Ok? ==> IsCanonical(r.value.code) && EqualIgnoringCase(r.value.code, code.value)
  {
    match code
    case None => Err(ArgumentNull("code"))
    case Some(s) =>
      if !MatchesPattern(s) then Err(Argument("code"))
      else Ok(UnLocode(ToUpper(s)))
  }

  /** `CodeString`, and `ToString`, which returns the same string. */
  function CodeString(u: UnLocode): string {
    u.code
  }

  /** `Equals` for a non-null argument of the same type: the single atomic
      value, the stored code, is compared. */
  predicate Equals(a: UnLocode, b: UnLocode) {
    ValueObject.AtomsEqual([a.code], [b.code], (x: string, y: string) => x == y)
  }

  lemma EqualsIsCodeEquality(a: UnLocode, b: UnLocode)
    ensures Equals(a, b) <==> a.code == b.code
  {
    ValueObject.AsWrittenAgreesOnEqualLength([a.code], [b.code], (x: string, y: string) => x == y);
  }

  /** Parsing is case-insensitive: two accepted codes give equal UnLocodes
      exactly when they differ only in letter case. */
  lemma {:induction false} ParseIgnoresCase(s: string, t: string)
    requires MatchesPattern(s) && MatchesPattern(t)
    ensures Equals(Parse(Some(s)).value, Parse(Some(t)).value) <==> EqualIgnoringCase(s, t)
  {
    var a, b := Parse(Some(s)).value, Parse(Some(t)).value;
    EqualsIsCodeEquality(a, b);
    if EqualIgnoringCase(s, t) {
      forall i | 0 <= i < 5
        ensures a.code[i] == b.code[i]
      {
        assert SameIgnoringCase(s[i], t[i]);
      }
    }
    if a.code == b.code {
      forall i | 0 <= i < 5
        ensures SameIgnoringCase(s[i], t[i])
      {
        assert UpperChar(s[i]) == UpperChar(t[i]);
      }
    }
  }

  /** Normalisation is idempotent: re-parsing a stored code gives the same UnLocode. */
  lemma ReparseIsIdentity(s: string)
    requires MatchesPattern(s)
    ensures Parse(Some(CodeString(Parse(Some(s)).value))) == Parse(Some(s))
  {
    var u := Parse(Some(s)).value;
    assert ToUpper(u.code) == u.code;
  }
}

=== FILE: value_object.dfy ===
/** The equality shared by every value object: two objects are compared through
    the ordered list of their atomic values. */
module ValueObject {
  import opened Wrappers

  /** The `object` that `Equals` receives: null, an instance of some other
      runtime type, or an instance of the receiver's own type. */
  datatype Obj<T> = Null | OtherType | Instance(value: T)

  /** The `==` helper: two nulls are equal, a null and a non-null are not,
      otherwise the left operand's `Equals` decides. The loop of `Equals` applies
      the same null rule to each pair of atomic values. */
  function EqualOperator<T>(left: Option<T>, right: Option<T>, equals: (T, T) -> bool): (r: bool)
    ensures left.None? && right.None? ==> r
    ensures left.None? != right.None? ==> !r
    ensures left.Some? && right.Some? ==> (r <==> equals(left.value, right.value))
  {
    if left.None? != right.None? then false
    else left.None? || equals(left.value, right.value)
  }

  /** The `!=` helper. */
  function NotEqualOperator<T>(left: Option<T>, right: Option<T>, equals: (T, T) -> bool): (r: bool)
    ensures r <==> !EqualOperator(left, right, equals)
    ensures left.None? && right.None? ==> !r
  {
    !EqualOperator(left, right, equals)
  }

  /** The enumerator loop of `Equals`, step by step. Both enumerators advance
      while the receiver still has a value; when the receiver runs out first,
      the argument must be exhausted too, but when the argument runs out first,
      the receiver has already been advanced once more, so only a single
      remaining value of the receiver goes unnoticed. */
  function AtomsEqual<A>(mine: seq<A>, theirs: seq<A>, eq: (A, A) -> bool): bool
    decreases |mine|
  {
    if |mine| == 0 then |theirs| == 0
    else if |theirs| == 0 then |mine| == 1
    else eq(mine[0], theirs[0]) && AtomsEqual(mine[1..], theirs[1..], eq)
  }

  /** What `AtomsEqual` accepts, stated without the enumerators: the argument's
      values match the receiver's prefix, and the receiver has the same number of
      values or exactly one more. */
  predicate PrefixMatchWithSlack<A>(mine: seq<A>, theirs: seq<A>, eq: (A, A) -> bool) {
    && (|mine| == |theirs| || |mine| == |theirs| + 1)
    && forall i :: 0 <= i < |theirs| ==> eq(mine[i], theirs[i])
  }

  lemma {:induction false} AtomsEqualIsPrefixMatchWithSlack<A>(mine: seq<A>, theirs: seq<A>, eq: (A, A) -> bool)
    ensures AtomsEqual(mine, theirs, eq) <==> PrefixMatchWithSlack(mine, theirs, eq)
    decreases |mine|
  {
    if |mine| == 0 || |theirs| == 0 {
    } else {
      AtomsEqualIsPrefixMatchWithSlack(mine[1..], theirs[1..], eq);
      if PrefixMatchWithSlack(mine[1..], theirs[1..], eq) && eq(mine[0], theirs[0]) {
        forall i | 0 <= i < |theirs|
          ensures eq(mine[i], theirs[i])
        {
          if i > 0 {
            assert eq(mine[1..][i - 1], theirs[1..][i - 1]);
          }
        }
      }
      if PrefixMatchWithSlack(mine, theirs, eq) {
        forall i | 0 <= i < |theirs[1..]|
          ensures eq(mine[1..][i], theirs[1..][i])
        {
          assert eq(mine[i + 1], theirs[i + 1]);
        }
      }
    }
  }

  /** `Equals(object)` with the enumerator loop written out: false for null
      or for another runtime type, otherwise the atomic values are walked with
      the two cursors `p` (receiver) and `q` (argument), each counting the
      successful `MoveNext` calls of its enumerator. */
  method EqualsByEnumeration<A>(mine: seq<A>, obj: Obj<seq<A>>, eq: (A, A) -> bool) returns (r: bool)
    ensures obj.Null? || obj.OtherType? ==> !r
    ensures obj.Instance? ==> (r <==> PrefixMatchWithSlack(mine, obj.value, eq))
  {
    if !obj.Instance? {
      return false;
    }
    var theirs := obj.value;
    var p, q := 0, 0;
    // while (thisValues.MoveNext() && otherValues.MoveNext()) { ... }
    while true
      invariant p == q <= |theirs| && p <= |mine|
      invariant forall k :: 0 <= k < p ==> eq(mine[k], theirs[k])
      decreases |mine| - p
    {
      if p == |mine| { break; }
      p := p + 1;
      if q == |theirs| { break; }
      q := q + 1;
      if !eq(mine[p - 1], theirs[q - 1]) {
        return false;
      }
    }
    // return !thisValues.MoveNext() && !otherValues.MoveNext();
    var thisHasMore := p < |mine|;
    if thisHasMore {
      p := p + 1;
    }
    r := !thisHasMore && !(q < |theirs|);
  }

  /** The comparison the atomic-value list evidently intends: same length and
      pointwise equal. */
  predicate AtomsEqualStrict<A>(mine: seq<A>, theirs: seq<A>, eq: (A, A) -> bool) {
    |mine| == |theirs| && forall i :: 0 <= i < |mine| ==> eq(mine[i], theirs[i])
  }

  /** On lists of equal length the loop as written and the intended comparison agree;
      so every value object with a fixed number of atomic values compares them pointwise. */
  lemma AsWrittenAgreesOnEqualLength<A>(mine: seq<A>, theirs: seq<A>, eq: (A, A) -> bool)
    requires |mine| == |theirs|
    ensures AtomsEqual(mine, theirs, eq) <==> AtomsEqualStrict(mine, theirs, eq)
  {
    AtomsEqualIsPrefixMatchWithSlack(mine, theirs, eq);
  }

  /** The discrepancy: a receiver carrying one extra trailing value equals the
      shorter argument, while the converse comparison fails. */
  lemma AsWrittenAcceptsOneTrailingValue<A>(theirs: seq<A>, extra: A, eq: (A, A) -> bool)
    requires forall i :: 0 <= i < |theirs| ==> eq(theirs[i], theirs[i])
    ensures AtomsEqual(theirs + [extra], theirs, eq)
    ensures !AtomsEqual(theirs, theirs + [extra], eq)
    ensures !AtomsEqualStrict(theirs + [extra], theirs, eq)
  {
    AtomsEqualIsPrefixMatchWithSlack(theirs + [extra], theirs, eq);
    AtomsEqualIsPrefixMatchWithSlack(theirs, theirs + [extra], eq);
    assert forall i :: 0 <= i < |theirs| ==> (theirs + [extra])[i] == theirs[i];
  }

  /** The intended comparison is symmetric whenever the atoms' equality is. */
  lemma StrictIsSymmetric<A>(mine: seq<A>, theirs: seq<A>, eq: (A, A) -> bool)
    requires forall x, y :: eq(x, y) == eq(y, x)
    ensures AtomsEqualStrict(mine, theirs, eq) == AtomsEqualStrict(theirs, mine, eq)
  {
  }
}

=== FILE: voyage.dfy ===
/** Voyages: entities identified by their voyage number, owning a schedule. */
module Voyages {
  import opened Wrappers
  import ValueObject
  import opened VoyageNumbers
  import opened Schedules

  /** A voyage object. `identity` stands for the object reference: distinct
      objects carry distinct identities, so two voyage values are the same object
      exactly when they are equal as Dafny values. */
  datatype Voyage = Voyage(identity: nat, number: VoyageNumber, schedule: Schedule)

  /** The constructor, allocating the object `identity`: rejects a null number,
      then a null schedule. */
  function New(identity: nat, number: Option<VoyageNumber>, schedule: Option<Schedule>): (r: Result<Voyage>)
    ensures number.None? ==> r == Err(ArgumentNull("number"))
    ensures number.Some? && schedule.None? ==> r == Err(ArgumentNull("schedule"))
    ensures r.Ok? <==> number.Some? && schedule.Some?
    ensures r.Ok? ==> r.value.number == number.value && r.value.schedule == schedule.value
                      && r.value.identity == identity
  {
    if number.None? then Err(ArgumentNull("number"))
    else if schedule.None? then Err(ArgumentNull("schedule"))
    else Ok(Voyage(identity, number.value, schedule.value))
  }

  /** `Voyage.Empty`: the single "no voyage" object, numbered "" with the empty schedule. */
  const Empty: Voyage := Voyage(0, VoyageNumber(""), Schedules.Empty)

  /** `Equals(object)`: false for null or another runtime type, otherwise the
      voyage numbers are compared; schedule and identity play no part. */
  predicate Equals(a: Voyage, obj: ValueObject.Obj<Voyage>) {
    obj.Instance? && VoyageNumbers.Equals(a.number, obj.value.number)
  }

  /** `==` on two voyages: `Voyage` declares no operator, so this is object identity. */
  predicate SameInstance(a: Voyage, b: Voyage) {
    a == b
  }

  /** Identity implies `Equals`, but two distinct voyage objects with the same
      number are `Equals` without being the same instance. */
  lemma IdentityIsFinerThanEquals(a: Voyage, n: VoyageNumber, s: Schedule, t: Schedule)
    ensures SameInstance(a, a) && Equals(a, ValueObject.Instance(a))
    ensures var v, w := Voyage(1, n, s), Voyage(2, n, t);
            Equals(v, ValueObject.Instance(w)) && !SameInstance(v, w)
    ensures !Equals(a, ValueObject.Null) && !Equals(a, ValueObject.OtherType)
  {
    EqualsIsStringEquality(a.number, a.number);
    EqualsIsStringEquality(n, n);
  }
}

=== FILE: voyage_builder.dfy ===
/** The voyage builder: a voyage is assembled movement by movement, each
    movement leaving from where the previous one arrived. */
module VoyageBuilders {
  import opened Wrappers
  import ValueObject
  import opened DateTimes
  import opened Locations
  import opened VoyageNumbers
  import opened CarrierMovements
  import opened Schedules
  import opened Voyages

  datatype VoyageBuilder = VoyageBuilder(
    voyageNumber: VoyageNumber,
    departureLocation: Location,
    movements: seq<CarrierMovement>)

  /** Consecutive movements chain, and the builder's departure location is
      where the last movement arrived. */
  predicate Chained(b: VoyageBuilder) {
    && (forall i :: 0 < i < |b.movements| ==> b.movements[i].departureLocation == b.movements[i - 1].arrivalLocation)
    && (|b.movements| > 0 ==> b.departureLocation == b.movements[|b.movements| - 1].arrivalLocation)
  }

  /** The constructor: rejects a null number, then a null departure location. */
  function New(number: Option<VoyageNumber>, departure: Option<Location>): (r: Result<VoyageBuilder>)
    ensures number.None? ==> r == Err(ArgumentNull("voyageNumber"))
    ensures number.Some? && departure.None? ==> r == Err(ArgumentNull("departureLocation"))
    ensures r.Ok? <==> number.Some? && departure.Some?
    ensures r.Ok? ==> r.value.movements == [] && r.value.departureLocation == departure.value
                      && r.value.voyageNumber == number.value && Chained(r.value)
  {
    if number.None? then Err(ArgumentNull("voyageNumber"))
    else if departure.None? then Err(ArgumentNull("departureLocation"))
    else Ok(VoyageBuilder(number.value, departure.value, []))
  }

  /** `AddMovement`: appends a movement from the current departure location to
      `arrival`, which becomes the next departure location. When the movement's
      constructor throws, nothing is appended and no builder results. */
  function AddMovement(b: VoyageBuilder, arrival: Option<Location>,
                       departureTime: DateTime, arrivalTime: DateTime): (r: Result<VoyageBuilder>)
    ensures r.Err? <==> CarrierMovements.New(Some(b.departureLocation), arrival, departureTime, arrivalTime).Err?
    ensures r.Err? ==> r.error == CarrierMovements.New(Some(b.departureLocation), arrival, departureTime, arrivalTime).error
    ensures r.Ok? ==>
      && r.value.movements == b.movements + [CarrierMovement(b.departureLocation, arrival.value, departureTime, arrivalTime)]
      && r.value.departureLocation == arrival.value
      && r.value.voyageNumber == b.voyageNumber
    ensures r.Ok? && Chained(b) ==> Chained(r.value)
  {
    match CarrierMovements.New(Some(b.departureLocation), arrival, departureTime, arrivalTime)
    case Err(e) => Err(e)
    case Ok(m) => Ok(b.(movements := b.movements + [m], departureLocation := arrival.value))
  }

  /** `Build`, allocating the voyage object `identity`: the builder's number and
      a schedule of the appended movements, which fails when there are none. */
  function Build(b: VoyageBuilder, identity: nat): (r: Result<Voyage>)
    ensures r.Err? <==> |b.movements| == 0
    ensures r.Err? ==> r == Err(Argument(""))
    ensures r.Ok? ==> r.value.number == b.voyageNumber && r.value.schedule.movements == b.movements
                      && r.value.identity == identity
  {
    match Schedules.New(Some(seq(|b.movements|, i requires 0 <= i < |b.movements| => Some(b.movements[i]))))
    case Err(e) => Err(e)
    case Ok(s) => Voyages.New(identity, Some(b.voyageNumber), Some(s))
  }

  /** The arguments of one `AddMovement` call. */
  datatype Stop = Stop(arrival: Location, departureTime: DateTime, arrivalTime: DateTime)

  /** A fluent chain of `AddMovement` calls, one per stop; the first exception
      ends the chain. */
  function AddMovements(b: VoyageBuilder, stops: seq<Stop>): Result<VoyageBuilder>
    decreases |stops|
  {
    if |stops| == 0 then Ok(b)
    else
      match AddMovement(b, Some(stops[0].arrival), stops[0].departureTime, stops[0].arrivalTime)
      case Err(e) => Err(e)
      case Ok(next) => AddMovements(next, stops[1..])
  }

  /** Where the `i`-th movement of a chain leaves from: the builder's departure
      location for the first, the previous stop's arrival for the others. */
  function DepartureOf(start: Location, stops: seq<Stop>, i: nat): Location
    requires i <= |stops|
  {
    if i == 0 then start else stops[i - 1].arrival
  }

  predicate AllTimesSet(stops: seq<Stop>) {
    forall i :: 0 <= i < |stops| ==> IsSet(stops[i].departureTime) && IsSet(stops[i].arrivalTime)
  }

  /** A chain of additions succeeds exactly when every stop has both times set.
      It then appends one movement per stop, in order, each leaving from the
      builder's departure location or from the previous arrival, keeps the
      earlier movements and the number, and leaves the builder at the last
      arrival. */
  lemma {:induction false} AddMovementsChains(b: VoyageBuilder, stops: seq<Stop>)
    ensures AddMovements(b, stops).Ok? <==> AllTimesSet(stops)
    ensures AddMovements(b, stops).Ok? ==>
      var r := AddMovements(b, stops).value;
      && |r.movements| == |b.movements| + |stops|
      && r.movements[..|b.movements|] == b.movements
      && (forall i :: 0 <= i < |stops| ==>
            r.movements[|b.movements| + i]
            == CarrierMovement(DepartureOf(b.departureLocation, stops, i), stops[i].arrival,
                               stops[i].departureTime, stops[i].arrivalTime))
      && r.departureLocation == DepartureOf(b.departureLocation, stops, |stops|)
      && r.voyageNumber == b.voyageNumber
      && (Chained(b) ==> Chained(r))
    decreases |stops|
  {
    if |stops| > 0 {
      var first := AddMovement(b, Some(stops[0].arrival), stops[0].departureTime, stops[0].arrivalTime);
      if first.Ok? {
        var next := first.value;
        AddMovementsChains(next, stops[1..]);
        assert AllTimesSet(stops) <==> AllTimesSet(stops[1..]) by {
          if AllTimesSet(stops[1..]) {
            forall i | 0 < i < |stops|
              ensures IsSet(stops[i].departureTime) && IsSet(stops[i].arrivalTime)
            {
              assert stops[i] == stops[1..][i - 1];
            }
          }
        }
        if AddMovements(b, stops).Ok? {
          var r := AddMovements(b, stops).value;
          assert r == AddMovements(next, stops[1..]).value;
          assert r.movements[..|next.movements|] == next.movements;
          assert r.movements[..|b.movements|] == r.movements[..|next.movements|][..|b.movements|];
          forall i | 0 <= i < |stops|
            ensures r.movements[|b.movements| + i]
                    == CarrierMovement(DepartureOf(b.departureLocation, stops, i), stops[i].arrival,
                                       stops[i].departureTime, stops[i].arrivalTime)
          {
            if i == 0 {
              assert r.movements[|b.movements|] == r.movements[..|next.movements|][|b.movements|];
            } else {
              assert r.movements[|b.movements| + i] == r.movements[|next.movements| + (i - 1)];
              assert stops[1..][i - 1] == stops[i];
              assert DepartureOf(next.departureLocation, stops[1..], i - 1) == DepartureOf(b.departureLocation, stops, i);
            }
          }
        }
      }
    }
  }

  /** Building twice gives equal voyages over the same movements. */
  lemma BuildTwiceGivesEqualVoyages(b: VoyageBuilder, id1: nat, id2: nat)
    requires |b.movements| > 0
    ensures Build(b, id1).Ok? && Build(b, id2).Ok?
    ensures Voyages.Equals(Build(b, id1).value, ValueObject.Instance(Build(b, id2).value))
    ensures Build(b, id1).value.schedule == Build(b, id2).value.schedule
  {
    VoyageNumbers.EqualsIsStringEquality(b.voyageNumber, b.voyageNumber);
  }
}

=== FILE: voyage_number.dfy ===
/** Voyage numbers: any string, the empty one included. */
module VoyageNumbers {
  import opened Wrappers
  import ValueObject

  datatype VoyageNumber = VoyageNumber(number: string)

  /** The constructor: only a null string is rejected. */
  function New(number: Option<string>): (r: Result<VoyageNumber>)
    ensures r.Err? <==> number.None?
    ensures number.None? ==> r == Err(ArgumentNull("number"))
    ensures r.Ok? ==> NumberString(r.value) == number.value
  {
    match number
    case None => Err(ArgumentNull("number"))
    case Some(s) => Ok(VoyageNumber(s))
  }

  /** `NumberString`, and `ToString`, which returns the same string. */
  function NumberString(n: VoyageNumber): string {
    n.number
  }

  /** `Equals` for a non-null argument: the single atomic value, the string, is compared. */
  predicate Equals(a: VoyageNumber, b: VoyageNumber) {
    ValueObject.AtomsEqual([a.number], [b.number], (x: string, y: string) => x == y)
  }

  lemma EqualsIsStringEquality(a: VoyageNumber, b: VoyageNumber)
    ensures Equals(a, b) <==> NumberString(a) == NumberString(b)
  {
    ValueObject.AsWrittenAgreesOnEqualLength([a.number], [b.number], (x: string, y: string) => x == y);
  }

  /** Numbers built from the same string are equal; from different strings, not. */
  lemma NewRespectsStrings(s: string, t: string)
    ensures Equals(New(Some(s)).value, New(Some(t)).value) <==> s == t
  {
    EqualsIsStringEquality(New(Some(s)).value, New(Some(t)).value);
  }
}

=== FILE: wrappers.dfy ===
/** Optional values (the domain's nullable references) and construction outcomes
    (the domain's argument exceptions). */
module Wrappers {

  /** A possibly-missing value: `None` stands for a null reference. */
  datatype Option<+T> = None | Some(value: T) {
    /** The value, or `default` when it is missing (the `??` operator). */
    function GetOr(default: T): T {
      match this
      case Some(v) => v
      case None => default
    }
  }

  /** The two exception kinds the constructors raise, with the offending
      parameter's name (the empty name stands for an exception raised without
      one), and the exception of enumerating a null list. Messages are not
      modelled. */
  datatype Error =
    | ArgumentNull(paramName: string)   // ArgumentNullException
    | Argument(paramName: string)       // ArgumentException
    | NullReference                     // NullReferenceException

  /** Either a value or the exception its computation throws. */
  datatype Result<+T> = Ok(value: T) | Err(error: Error)
}
